=== FILE: README.md ===
# raster-footprint in Dafny

A model of the footprint pipeline of `raster_footprint`. The pipeline:

1. builds a 0/255 validity mask from a raster;
2. traces the mask into polygons;
3. densifies the polygons;
4. reprojects them and removes the repeated points that rounding creates;
5. simplifies them.

Coordinates are exact `real`s. Errors the Python code raises are `Failure` values of `Results.Result`.

Modules, one per source file:

- `Shapes`: points, rings, polygons and the Polygon/MultiPolygon geometry. It also holds the shoelace signed area and `orient`. `orient` reverses an exterior whose signed area is negative and a hole whose signed area is positive.
- `Raster`: masks as `Grid`s of bytes; pixel arrays (2-D `Plane` or band-stacked `Stack`); and the dataset reader as a plain record. The record holds band indexes, per-band nodata, shape, transform, CRS, dataset mask, band masks and band data.
- `External`: the collaborators the code calls but does not implement, as function-typed fields of `Engines`:
  - the mask tracer `rasterio.features.shapes`;
  - `unary_union`, `convex_hull` and `simplify`;
  - the per-vertex effect of `transform_geom`;
  - the segment length.
- `Densify` (`densify.py`): both densifiers are written as one construction, `Runs`. Each segment is replaced by the points at chosen parameters along it, and the last vertex is appended. The numpy exceptions for an empty list, a zero factor and a zero distance are modelled. So is `np.round` (half to even).
- `Reproject` (`reproject.py`): `groupby` deduplication, the polygon and multipolygon maps, and the `reproject_extent` dispatch.
- `Mask` (`mask.py`): `create_mask`, with the code as written beside the corrected form, and the control flow of `get_mask_extent`.
- `Footprint` (`footprint.py`):
  - the stage order of `footprint_from_mask`;
  - `footprint_from_data`;
  - the error and mask-selection table of `footprint_from_rasterio_reader`.
- `RasterFootprint` (`raster_footprint.py`): the earlier class. It shares `Densify`, `Reproject`, `Mask` and the selection table. Its own semantics:
  - no rounding when densifying;
  - only the exterior is densified and reprojected;
  - a convex hull when several regions are traced;
  - the band list `[1]` by default.
- `Examples`: the numbers quoted by the docstrings and tests, checked on the model:
  - the side-10 square gives 9 points at factor 2;
  - the same square gives 17 points at distance 3.33, keeping every corner;
  - a segment of 10 at distance 2 gets 4 new points.

The source is not self-consistent. The model follows the evident intent and records each gap here:

- `footprint.py:13-14` imports `get_mask_geometry` and `reproject_geometry`. Neither exists:
  - `mask.py:47` defines `get_mask_extent`. `Footprint.Extent` uses it.
  - `reproject.py:53` defines `reproject_extent`, whose destination is fixed to EPSG:4326 at `reproject.py:31`. `footprint.py:85-87` passes a destination system. So `Reproject.ReprojectGeometry` takes the destination as a parameter, and `Reproject.ReprojectExtent` is the EPSG:4326 instance.
- `footprint.py:146` calls `create_mask(data, nodata=...)`, but the keyword is `no_data` (`mask.py:14`). As written, that call raises `TypeError`. `Footprint.FootprintFromData` models the intended call.
- `footprint.py:321` makes the same `create_mask(..., nodata=...)` call, so as written the reader path with a nodata value different from the reader's also raises `TypeError`. `Footprint.SelectMask`, and through it `Footprint.FootprintFromReader`, model the intended call.
- For several bands, `footprint.py:315-317` ORs the band masks by a `uint8` sum, which wraps at 256 (see Findings). `Footprint.SelectMask` uses the corrected `Footprint.OrMasks` instead; `Footprint.OrMasksAsWritten` models the code as written.
- The `holes` default differs between files:
  - `True` in `get_mask_extent` (`mask.py:52`);
  - `False` in every `footprint_from_*` function (`footprint.py:29`, `Footprint.Defaults`).
- The `bands` docstring of `footprint_from_rasterio_reader` (`footprint.py:288-291`) says the default is `[1]`. The signature default is `None` (`footprint.py:249`), and `None` takes the `dataset_mask` branch (`Footprint.DefaultBandsUseDatasetMask`). The class default really is `[1]` (`RasterFootprint.DefaultBandsReadFirstBand`).
- The class docstring at `raster_footprint.py:29-31` says 5 points at factor 2 give 10. The code gives 9, the same as `densify.py` (`Examples.SquareByFactor`).
- `densify_polygon` passes the factor and distance through unchecked:
  - a zero factor raises inside `np.arange`;
  - a negative factor gives an empty list;
  - a zero distance raises on `np.arange` of an infinite or NaN count.

  `Densify.Interpolate` models each of these as the code behaves.

## Model

| member | source | states |
|---|---|---|
| Shapes.Wrap | src/raster_footprint/mask.py:94-97 | one polygon is returned as a Polygon, several as a MultiPolygon, and the members are exactly the list given, in order |
| Shapes.ShoelaceReverse | src/raster_footprint/mask.py:92 | reversing a ring negates its signed area, which is why reversing fixes its winding |
| Shapes.OrientExterior | src/raster_footprint/mask.py:92 | the exterior ends with signed area >= 0, is the input or its reverse, and is left alone when already counter-clockwise |
| Shapes.OrientHole | src/raster_footprint/mask.py:92 | a hole ends with signed area <= 0, is the input or its reverse, and is left alone when already clockwise |
| Shapes.Orient | src/raster_footprint/mask.py:92 | the result is oriented; it keeps the hole count; each ring is the original or its reverse; an oriented polygon is unchanged |
| Shapes.OrientIdempotent | src/raster_footprint/mask.py:99-100 | orienting twice is orienting once, so re-orienting the hull of oriented polygons is harmless |
| Shapes.OrientAll | src/raster_footprint/mask.py:92 | every polygon of the list is oriented, count and order kept |
| Raster.Full | src/raster_footprint/footprint.py:307-308 | the whole-raster mask is a rows x cols grid holding 255 everywhere |
| Raster.ReadMasks | src/raster_footprint/footprint.py:313-315 | one mask per listed band, in the order listed |
| Raster.Read | src/raster_footprint/footprint.py:319-321 | a band stack of the listed bands' data, in order, each height x width |
| Densify.RoundHalfEven | src/raster_footprint/densify.py:40-45 | the integer is within 1/2 of its argument; a tie goes to the even neighbour; a whole number is kept |
| Densify.Round | src/raster_footprint/densify.py:40-45 | the rounded value is within half a unit in the last kept decimal place, for positive and negative decimals |
| Densify.RoundOnGrid | src/raster_footprint/densify.py:88-90 | a value that already has the requested decimals is unchanged; any result has them |
| Densify.RoundIdempotent | src/raster_footprint/densify.py:88-90 | rounding twice to the same decimals equals rounding once |
| Densify.RoundRing | src/raster_footprint/densify.py:88-91 | rounding a point list keeps its length and rounds every point on its own |
| Densify.Run | src/raster_footprint/densify.py:84-86 | the points emitted for a segment are the linear interpolations at the given parameters, one per parameter |
| Densify.Runs | src/raster_footprint/densify.py:87-91 | the concatenated runs plus the final point have one point per parameter plus one, and end at the last vertex |
| Densify.RunsAt | src/raster_footprint/densify.py:82-89 | the j-th point of segment i's run is found at that run's offset plus j |
| Densify.RunsFirst | src/raster_footprint/densify.py:82-89 | when each run starts at its segment's first vertex, the result starts at the ring's first vertex |
| Densify.CrossOnLine | src/raster_footprint/densify.py:84-86 | the cross product of two points on one segment scales with their parameter gap |
| Densify.RunShoelace | src/raster_footprint/densify.py:84-86 | points inserted along one segment add nothing to the signed area |
| Densify.RunsKeepShoelace | src/raster_footprint/densify.py:82-89 | the densified ring has the signed area of the original, so the same winding |
| Densify.Fractions | src/raster_footprint/densify.py:38-39 | a segment of the factor method gets f parameters, starting at 0, all in [0, 1) |
| Densify.FactorParams | src/raster_footprint/densify.py:38-39 | every segment gets f parameters and starts at its own vertex |
| Densify.FactorPoints | src/raster_footprint/densify.py:36-46 | a ring of N >= 1 points densified by factor f has f(N-1)+1 points |
| Densify.FactorPointsBetween | src/raster_footprint/densify.py:38-45 | output index k*f+j lies j/f of the way from vertex k to vertex k+1 |
| Densify.FactorPointsKeepVertices | src/raster_footprint/densify.py:38-45 | original vertex k is at output index k*f |
| Densify.FactorPointAt | src/raster_footprint/densify.py:38-45 | each point np.interp produces equals the point the segment-by-segment construction emits at that index |
| Densify.FactorPointsEnds | src/raster_footprint/densify.py:38-39 | the factor output starts at the first vertex and ends at the last |
| Densify.FactorPointsAreRuns | src/raster_footprint/densify.py:36-46 | the np.interp formulation equals the segment-by-segment construction |
| Densify.Ceil | src/raster_footprint/densify.py:83 | the least integer not below its argument |
| Densify.Steps | src/raster_footprint/densify.py:83 | np.arange(r) has no elements for r <= 0 and ceil(r) elements otherwise |
| Densify.StepParams | src/raster_footprint/densify.py:83-86 | ceil(r) parameters, the j-th equal to j/r, all in [0, 1), the first 0 |
| Densify.DistanceParams | src/raster_footprint/densify.py:79-86 | segment i gets the parameters for length over distance |
| Densify.DistancePoints | src/raster_footprint/densify.py:76-91 | the distance method ends at the ring's last vertex |
| Densify.DistanceCount | src/raster_footprint/densify.py:81-91 | the count is the sum over segments of ceil(length/distance) (zero for zero length) plus one |
| Densify.SqDistLerp | src/raster_footprint/densify.py:78-86 | the point at parameter t is t times the segment length from its start |
| Densify.DistancePointOnSegment | src/raster_footprint/densify.py:81-87 | the j-th point of segment i is on the segment at parameter j/(length/distance) < 1, strictly before the next vertex |
| Densify.LerpAtDistance | src/raster_footprint/densify.py:79-86 | with a true length, the point at parameter j/(length/distance) is at distance j*distance from the segment start |
| Densify.DistancePointAtDistance | src/raster_footprint/densify.py:57-62 | with a true length, the j-th point of a segment is exactly j distances from its start |
| Densify.DistanceSegmentsStart | src/raster_footprint/densify.py:83-86 | with a positive distance, every segment of positive length starts its run at its first vertex |
| Densify.RunsKeepVertices | src/raster_footprint/densify.py:82-91 | if every run starts at its segment's first vertex, every vertex of the ring appears in the output |
| Densify.DistancePointsKeepVertices | src/raster_footprint/densify.py:76-91 | densifying by a positive distance keeps every original vertex |
| Densify.InterpolateByFactor | src/raster_footprint/raster_footprint.py:46-52 | unrounded factor method: a zero factor raises ZeroDivisionError; an empty list raises IndexError; a negative factor gives [] (a single point stays); otherwise f(N-1)+1 points ending at the last vertex, and for f >= 1 exactly the `np.interp` points `FactorPoints` |
| Densify.InterpolateByDistance | src/raster_footprint/raster_footprint.py:77-90 | unrounded distance method: an empty list raises IndexError; distance 0 raises ValueError on two or more points; a single point is returned as is; otherwise the distance points |
| Densify.Interpolate | src/raster_footprint/densify.py:36-91 | both methods: fails exactly on the inputs numpy rejects, with its exception; a factor f >= 1 gives exactly `FactorPoints`, and a distance case is the distance method's result (the runs `DistancePoints` for a nonzero distance) |
| Densify.InterpolateKeepsShoelace | src/raster_footprint/densify.py:36-91 | before rounding, a densified ring has the original signed area (factor >= 1, or distance > 0) |
| Densify.InterpolateKeepsClosed | src/raster_footprint/densify.py:36-91 | before rounding, a closed ring stays closed |
| Densify.DensifyRing | src/raster_footprint/densify.py:40-45 | the rounded ring fails exactly when the exact one does; otherwise same length and each point rounded |
| Densify.DensifyByFactorKeepsVertices | src/raster_footprint/densify.py:38-45 | vertex k appears, rounded, at output index k*f |
| Densify.DensifyRingNearExact | src/raster_footprint/densify.py:88-90 | every output coordinate is within half a unit in the last place of the exact interpolation |
| Densify.DensifyRings | src/raster_footprint/densify.py:125-128 | the holes are densified one by one; the list fails exactly when one hole fails; count and order kept |
| Densify.DensifyPolygon | src/raster_footprint/densify.py:121-140 | both options raise ValueError; neither returns the polygon unchanged; one option fails exactly when the exterior or a hole fails and keeps the hole count; a factor f >= 1 gives every ring of N points f(N-1)+1 points; on success with one option, the exterior and every hole i are that ring densified alone with the same option |
| Densify.DensifyMultiPolygon | src/raster_footprint/densify.py:170-174 | each polygon densified in order and the count kept; fails exactly when one polygon fails; both options raise ValueError |
| Densify.DensifyGeometry | src/raster_footprint/densify.py:201-210 | a Polygon stays a Polygon and a MultiPolygon stays a MultiPolygon; anything else raises TypeError; no options is the identity |
| Reproject.Dedup | src/raster_footprint/reproject.py:35 | no two adjacent points are equal; first and last points kept; no new points; every input point survives |
| Reproject.DedupIsSubsequence | src/raster_footprint/reproject.py:35 | the output is a subsequence of the input |
| Reproject.DedupOfDupFree | src/raster_footprint/reproject.py:35-36 | a list without adjacent repeats is unchanged, so repeats that are not adjacent survive |
| Reproject.DedupIdempotent | src/raster_footprint/reproject.py:35 | deduplicating twice equals deduplicating once |
| Reproject.DedupOfRun | src/raster_footprint/reproject.py:35 | a run of copies of one point collapses to one point |
| Reproject.DedupOfStutter | src/raster_footprint/reproject.py:32-36 | any repetition of the points of a list without adjacent repeats is undone exactly |
| Reproject.DedupKeepsShoelace | src/raster_footprint/reproject.py:35-36 | removing repeated points keeps the signed area, so the winding |
| Reproject.ProjectRing | src/raster_footprint/reproject.py:31 | vertex i of the result is the engine's image of vertex i; length kept; a closed ring stays closed |
| Reproject.ProjectPolygon | src/raster_footprint/reproject.py:31 | the exterior and every hole are transformed vertex by vertex, hole count kept |
| Reproject.DedupPolygon | src/raster_footprint/reproject.py:35-37 | the exterior and each hole are deduplicated on their own, hole count kept |
| Reproject.ReprojectPolygon | src/raster_footprint/reproject.py:31-37 | the exterior and each hole are the groupby deduplication of the transformed ring; no ring has adjacent repeats; hole count kept; a closed ring stays closed; the ends are the transformed ends |
| Reproject.ReprojectMultiPolygon | src/raster_footprint/reproject.py:46-50 | polygon by polygon, count and order kept |
| Reproject.ReprojectGeometry | src/raster_footprint/reproject.py:59-64 | Polygon to Polygon, MultiPolygon to MultiPolygon member by member; anything else raises TypeError |
| Reproject.ReprojectExtent | src/raster_footprint/reproject.py:53-64 | TypeError exactly for non-polygonal input; otherwise a Polygon stays a Polygon and a MultiPolygon a MultiPolygon, with the same member count, and member i is member i reprojected to EPSG:4326 |
| Reproject.ReprojectIdentity | src/raster_footprint/reproject.py:31-37 | with a transform that moves nothing, the result is the deduplicated polygon and an oriented polygon stays oriented |
| Mask.CountData | src/raster_footprint/mask.py:35-40 | the per-pixel count of bands holding data is at most the band count |
| Mask.CountDataPositive | src/raster_footprint/mask.py:40-41 | the count is positive exactly when some band holds data at that pixel |
| Mask.CountAllData | src/raster_footprint/mask.py:37-40 | when every band holds data, the count is the band count |
| Mask.DataCell | src/raster_footprint/mask.py:34-41 | a cell is 0 or 255, and 255 exactly when some band differs from nodata (NaN compared by isnan) |
| Mask.CreateMask | src/raster_footprint/mask.py:13-44 | the mask has the raster's rows x cols for 2-D and 3-D input; all 255 without nodata; otherwise 255 exactly where some band has data |
| Mask.AllNodataEmptyMask | src/raster_footprint/mask.py:34-41 | a raster that is nodata everywhere has no 255 cell |
| Mask.CreateMaskAsWritten | src/raster_footprint/mask.py:31-44 | as written: no nodata keeps the band axis (one all-255 layer per band); with nodata, fewer than 256 bands agree with the corrected mask |
| Mask.WrappedCell | src/raster_footprint/mask.py:40-41 | the uint8 cell agrees with the corrected one below 256 bands |
| Mask.WrapDropsDataPixel | src/raster_footprint/mask.py:40-41 | with 256 bands all holding data, the uint8 sum wraps to 0 and the pixel is lost |
| Mask.MaskDimsAsWritten | src/raster_footprint/mask.py:31-43 | a 5x5 array without nodata gives a 1x5x5 array as written, where a 5x5 mask is promised |
| Mask.DataPolygons | src/raster_footprint/mask.py:73-79 | the kept shapes are the 255 regions' shapes in tracing order (a subsequence of all traced shapes), as many as there are 255 regions; every 255 region is kept and no other; empty exactly when no region has value 255 |
| Mask.StripHoles | src/raster_footprint/mask.py:84-85 | each polygon keeps its exterior and loses its holes |
| Mask.GetMaskExtent | src/raster_footprint/mask.py:47-102 | None exactly when no region has value 255; every polygon oriented; the hull gives one hole-free polygon whose ring is the engine's hull of the oriented traced polygons, or its reverse; otherwise one part is a Polygon and several a MultiPolygon, and each exterior and each hole is the traced (or union) ring or its reverse |
| Mask.BareExteriors | src/raster_footprint/mask.py:84-90 | with holes and hull off, the polygons have exteriors only when the union adds no holes |
| Mask.HullIgnoresHoles | src/raster_footprint/mask.py:99-100 | with the convex hull on, the holes flag has no effect |
| Mask.NoDataNoExtent | src/raster_footprint/mask.py:73-82 | a mask with no 255 cell yields None |
| Footprint.SimplifyGeometry | src/raster_footprint/simplify.py:20-22 | no tolerance is the identity; otherwise the simplification engine |
| Footprint.Stages | src/raster_footprint/footprint.py:82-88 | densify, then reproject, then simplify; fails exactly when densifying fails; without a tolerance each member is the reprojected densified member with no adjacent repeats |
| Footprint.SimplifyRunsLast | src/raster_footprint/footprint.py:82-88 | with a tolerance, the result is the simplification of what the stages give without one: simplification runs last |
| Footprint.FootprintFromMask | src/raster_footprint/footprint.py:75-90 | None exactly when extraction gives None; otherwise the stages applied to the extent; both densify options raise ValueError |
| Footprint.FootprintIdentityStages | src/raster_footprint/footprint.py:82-88 | with no densifying, no simplifying and an identity transform, the footprint is the deduplicated extent, still oriented |
| Footprint.FootprintFromData | src/raster_footprint/footprint.py:146-158 | the result is the footprint of `create_mask(data, nodata)`: with no nodata, that of the full 255 mask; all-nodata data gives None |
| Footprint.SumCellsPositive | src/raster_footprint/footprint.py:316-317 | the summed masks are positive exactly where some mask is |
| Footprint.SumOfBinaryMasks | src/raster_footprint/footprint.py:316 | summing 0/255 masks gives 255 per valid mask |
| Footprint.CountAllSet | src/raster_footprint/footprint.py:316 | where every mask is set, the count is the number of masks |
| Footprint.OrCell | src/raster_footprint/footprint.py:315-317 | a cell of the OR is 0 or 255, and 255 exactly where some mask is set |
| Footprint.OrMasks | src/raster_footprint/footprint.py:314-317 | the OR of several band masks: 255 exactly where any band mask is valid |
| Footprint.OrMasksAsWritten | src/raster_footprint/footprint.py:315-317 | as written, the OR wraps its uint8 sum; cells are still 0 or 255 |
| Footprint.OrMasksAgree | src/raster_footprint/footprint.py:315-317 | below 256 masks of 0s and 255s, the OR as written equals the corrected OR |
| Footprint.OrMasksWrap | src/raster_footprint/footprint.py:316-317 | 256 masks that all mark a pixel valid sum to 0 in uint8, and the pixel is lost as written |
| Footprint.OrOfOneMask | src/raster_footprint/footprint.py:312-317 | ORing one 0/255 mask returns it, so the one-band branch agrees with the several-band one |
| Footprint.SelectMask | src/raster_footprint/footprint.py:307-321 | whole raster: all 255; nodata absent or equal to the reader's: dataset mask with no bands, the band's mask for one, the OR for several; else the mask from the listed or all bands' data; an unknown band fails |
| Footprint.WholeIgnoresOptions | src/raster_footprint/footprint.py:307-308 | the whole-raster mask does not depend on nodata or the band list |
| Footprint.ReaderNodataIsDefault | src/raster_footprint/footprint.py:309 | an explicit nodata equal to the reader's selects the same mask as none |
| Footprint.FootprintFromReader | src/raster_footprint/footprint.py:297-334 | no bands raises ValueError before anything else; explicit nodata with mixed per-band nodata raises ValueError; otherwise the footprint of the selected mask |
| Footprint.DefaultBandsUseDatasetMask | src/raster_footprint/footprint.py:249 | with default arguments the dataset mask is used |
| RasterFootprint.New | src/raster_footprint/raster_footprint.py:228-250 | both densification options raise ValueError; otherwise the arguments are stored |
| RasterFootprint.DataExtent | src/raster_footprint/raster_footprint.py:269-295 | None exactly when no region has value 255; one region is returned oriented, its exterior and each hole being the traced ring or its reverse; several give their oriented hull without holes |
| RasterFootprint.DataExtentIsHullExtent | src/raster_footprint/raster_footprint.py:288-295 | with several regions, the class's extent equals the convex-hull extent of the functional pipeline |
| RasterFootprint.DensifyPolygon | src/raster_footprint/raster_footprint.py:297-320 | the exterior alone is densified, unrounded: it is exactly `Densify.Interpolate` of the exterior with the chosen option; holes are dropped; no option is the identity; the assert never fires on a constructed object |
| RasterFootprint.DensifyExterior | src/raster_footprint/raster_footprint.py:309-318 | the polygon rebuilt from its interpolated exterior; counts and end point of the interpolation |
| RasterFootprint.DensifyKeepsOrientation | src/raster_footprint/raster_footprint.py:308-320 | densifying an oriented polygon without rounding keeps its signed area, so it stays oriented |
| RasterFootprint.ReprojectPolygon | src/raster_footprint/raster_footprint.py:111-116 | only the deduplicated exterior survives; holes dropped; no adjacent repeats; closed stays closed |
| RasterFootprint.SimplifyPolygon | src/raster_footprint/raster_footprint.py:347-353 | no tolerance is the identity; otherwise the simplified polygon re-oriented |
| RasterFootprint.Footprint | src/raster_footprint/raster_footprint.py:252-267 | None exactly when there is no extent; it fails exactly when densifying the extent fails; otherwise the polygon is the extent densified, then reprojected, then simplified; without a tolerance the result has no holes and no adjacent repeats |
| RasterFootprint.FootprintKeepsOrientation | src/raster_footprint/raster_footprint.py:261-267 | with an identity transform and no tolerance, the footprint keeps the extent's signed area, whether densified by a factor or by a positive distance |
| RasterFootprint.FromReader | src/raster_footprint/raster_footprint.py:478-513 | no bands or mixed nodata raise ValueError; otherwise the functional pipeline's mask table, then the constructor |
| RasterFootprint.FromNumpyArray | src/raster_footprint/raster_footprint.py:516-572 | ValueError exactly when both densify options are given; otherwise the arguments are stored and the mask is rows x cols, all 255 without nodata, else 255 exactly where some band holds data |
| RasterFootprint.DefaultBandsReadFirstBand | src/raster_footprint/raster_footprint.py:433 | the default band list reads band 1's mask |
| Examples.SquareByFactor | tests/test_densify.py:17-21 | the side-10 square at factor 2 has 9 points, every corner among them |
| Examples.SquareDistancePoints | tests/test_densify.py:10-14 | before rounding, the square at distance 3.33 has 17 points, every corner among them |
| Examples.SquareByDistance | tests/test_densify.py:10-14 | after rounding to 7 places, still 17 points with every corner |
| Examples.TenByTwo | src/raster_footprint/densify.py:57-62 | a segment of 10 at distance 2 gets the 4 points 2, 4, 6, 8 between its ends |
| Examples.DedupExample | src/raster_footprint/reproject.py:35 | an adjacent repeat collapses while the ring's closing repeat stays |

## Left out

- Floating point. Coordinates are exact reals, and rounding is exact decimal rounding, half to even.
- The coordinate transform of `transform_geom` (`reproject.py:31`, `raster_footprint.py:111`). It is an opaque per-vertex function, so antimeridian cutting and the engine's own rounding are not modelled.
- Mask tracing, `unary_union`, `convex_hull` and `simplify`. They are opaque fields of `External.Engines`; only the shape facts the code relies on are stated.
- The segment length is a parameter, because the model has no square root. Lemmas that need the Euclidean length take it as a hypothesis (`External.Measures`).
- shapely `Polygon` validation (for example a ring that deduplication leaves too short) and `mapping` to GeoJSON. The model returns the geometry itself.
- File I/O: `rasterio.open`, `footprint_from_href` and `from_href`. The reader is a record.
- `_cli.py`, `__init__.py` re-exports, `constants.py` and `docs/conf.py`: glue.
- `read_masks` with one band returns a 1 x height x width array. The model uses the band's 2-D mask.
- The text of rasterio's `IndexError` for an unknown band is not part of this model. `Footprint.BandIndexMessage` is a stand-in.
- `set(reader.nodatavals)` treats each NaN as its own value. `Raster.UniformNodata` compares NaN equal to NaN.
- Densifying inside `footprint_from_mask` always rounds to 7 places (`footprint.py:82-84` passes no precision). The model does the same; `precision` applies only to reprojection.
- Mask.BareExteriors: stated only when the union adds no holes, because `unary_union` of hole-free polygons can enclose new holes.
- RasterFootprint.DataExtentIsHullExtent: assumes the hull ignores the winding of its input rings, a property of shapely that is not modelled.
- Mask.NoDataNoExtent: holds when the tracer only reports values present in the mask (`External.TracesValuesOf`), because tracing is opaque.
- Footprint.FootprintFromData: the all-nodata case holds when the tracer only reports values present in the mask (`External.TracesValuesOf`).
- Footprint.Stages: the per-member composition is stated without a tolerance. With one, `Footprint.SimplifyRunsLast` states that the simplification engine runs last; what the engine returns is not modelled.
- Densify.InterpolateKeepsShoelace: by distance, it needs every segment measured as positive or degenerate (`Densify.SegmentsMeasured`).
- Footprint.SelectMask: models the intended `create_mask(..., no_data=...)` call at `footprint.py:321`, which raises `TypeError` as written, and ORs several band masks with the corrected `Footprint.OrMasks` rather than the wrapping `uint8` sum of `footprint.py:315-317`.
- RasterFootprint.FromReader: uses `Footprint.SelectMask`, so several band masks are ORed by the corrected `Footprint.OrMasks` rather than the wrapping `uint8` sum of `raster_footprint.py:497-499`, and the data mask is the corrected `Mask.CreateMask` rather than `create_data_mask` (`raster_footprint.py:146-149`).
- RasterFootprint.FromNumpyArray: builds its mask with the corrected `Mask.CreateMask`, not the as-written `create_data_mask` (`raster_footprint.py:146-149`), which wraps at 256 bands and keeps the band axis without nodata (see Findings).
- Footprint.FootprintFromReader: inherits both corrections from `Footprint.SelectMask`, so it describes the intended reader path rather than the `TypeError` the code raises when `nodata` differs from the reader's.

## Findings

| source | as written | input that shows it | evidently intended | confidence | as-written member | corrected member |
|---|---|---|---|---|---|---|
| src/raster_footprint/mask.py:40-41 | per-pixel band counts are summed with `dtype=np.uint8`, which wraps at 256 | 256 bands all holding data at a pixel: the sum is 0 and the pixel is marked nodata | 255 wherever any band holds data | not executed | Mask.WrapDropsDataPixel | Mask.CreateMask |
| src/raster_footprint/raster_footprint.py:146-147 | `create_data_mask` has the same uint8 sum | 256 bands all holding data at a pixel | 255 wherever any band holds data | not executed | Mask.CreateMaskAsWritten | Mask.CreateMask |
| src/raster_footprint/mask.py:42-43 | without nodata the mask is `np.full` of the band-lifted 3-D shape | a 5x5 array gives a 1x5x5 mask; tests/test_mask.py:51-60 expects 5x5 | a rows x cols mask of 255 | not executed | Mask.MaskDimsAsWritten | Mask.CreateMask |
| src/raster_footprint/footprint.py:315-317 | several band masks are ORed by a uint8 sum, which wraps at 256 | 256 listed bands all valid at a pixel: the sum is 0 and the pixel is lost | 255 wherever any band mask is valid | not executed | Footprint.OrMasksWrap | Footprint.OrMasks |
| src/raster_footprint/raster_footprint.py:497-499 | the class's OR of band masks has the same uint8 sum | 256 listed bands all valid at a pixel | 255 wherever any band mask is valid | not executed | Footprint.OrMasksAsWritten | Footprint.OrMasks |

=== FILE: densify.dfy ===
/**
 * Densification of polygon rings: by a whole-number factor (linear
 * interpolation at evenly spaced indexes, `np.interp`) or by a distance
 * interval (`np.arange` of the segment length over the distance), with the
 * result rounded to a number of decimal places (`np.round`, ties to even).
 *
 * Both densifiers are written as one construction, `Runs`: every segment
 * of the ring is replaced by points at chosen parameters along it, and the
 * last vertex is appended.
 */
module Densify {
  import opened Results
  import opened Shapes
  import opened External

  /** Decimal places kept in output coordinates (roughly one centimetre in degrees). */
  const DefaultPrecision: int := 7

  const BothOptionsMessage := "Only one of 'factor' or 'distance' can be specified."
  const GeometryTypeMessage := "geometry must be a Polygon or MultiPolygon"
  /** `existing_indices[-1]` on an empty index array. */
  const EmptyIndexMessage := "index -1 is out of bounds for axis 0 with size 0"
  /** `points[1:, :]` on the 1-dimensional array made from an empty point list. */
  const TooManyIndicesMessage := "too many indices for array: array is 1-dimensional, but 2 were indexed"
  /** `np.arange(0, n, 0)`. */
  const ZeroStepMessage := "division by zero"
  /** `np.arange(inf)`: a segment of positive length divided by a zero distance. */
  const InfiniteLengthMessage := "Maximum allowed size exceeded"
  /** `np.arange(nan)`: a segment of zero length divided by a zero distance. */
  const NanLengthMessage := "arange: cannot compute length"

  // ---------------------------------------------------------------- rounding

  function Pow10(n: nat): (p: int)
    ensures p >= 1
  {
    if n == 0 then 1 else 10 * Pow10(n - 1)
  }

  predicate IsWhole(y: real)
  {
    y == y.Floor as real
  }

  /** `np.rint`: the nearest integer, the even one on a tie. */
  function RoundHalfEven(y: real): (n: int)
    ensures -0.5 <= n as real - y <= 0.5
    ensures n as real - y == 0.5 || y - n as real == 0.5 ==> n % 2 == 0
    ensures IsWhole(y) ==> n as real == y
  {
    var f := y.Floor;
    var frac := y - f as real;
    if frac < 0.5 then f
    else if frac > 0.5 then f + 1
    else if f % 2 == 0 then f
    else f + 1
  }

  /** x times 10^d. */
  function Scale(x: real, d: nat): real
  {
    x * Pow10(d) as real
  }

  /** x divided by 10^d. */
  function Unscale(x: real, d: nat): real
  {
    x / Pow10(d) as real
  }

  lemma ScaleInverse(y: real, d: nat)
    ensures Scale(Unscale(y, d), d) == y
    ensures Unscale(Scale(y, d), d) == y
  {
  }

  lemma ScaleSub(a: real, b: real, d: nat)
    ensures Scale(a - b, d) == Scale(a, d) - Scale(b, d)
    ensures Unscale(a - b, d) == Unscale(a, d) - Unscale(b, d)
  {
  }

  /**
   * `np.round(x, decimals)`: scale by 10^decimals, round half to even,
   * scale back (for negative `decimals`, divide first and multiply back).
   * The result is within half a unit of the last kept place.
   */
  function Round(x: real, decimals: int): (r: real)
    ensures decimals >= 0 ==> -1.0 <= 2.0 * Scale(r - x, decimals) <= 1.0
    ensures decimals < 0 ==> -1.0 <= 2.0 * Unscale(r - x, -decimals) <= 1.0
  {
    if decimals >= 0 then
      var n := RoundHalfEven(Scale(x, decimals));
      ScaleInverse(n as real, decimals);
      ScaleSub(Unscale(n as real, decimals), x, decimals);
      Unscale(n as real, decimals)
    else
      var n := RoundHalfEven(Unscale(x, -decimals));
      ScaleInverse(n as real, -decimals);
      ScaleSub(Scale(n as real, -decimals), x, -decimals);
      Scale(n as real, -decimals)
  }

  /** x is representable with `decimals` decimal places. */
  predicate OnGrid(x: real, decimals: int)
  {
    if decimals >= 0 then IsWhole(Scale(x, decimals)) else IsWhole(Unscale(x, -decimals))
  }

  lemma WholeInt(n: int)
    ensures IsWhole(n as real)
  {
  }

  /** A whole number has every non-negative number of decimal places. */
  lemma IntOnGrid(n: int, d: nat)
    ensures OnGrid(n as real, d)
  {
    assert Scale(n as real, d) == (n * Pow10(d)) as real;
    WholeInt(n * Pow10(d));
  }

  /** Rounding leaves a value that already has `decimals` places unchanged, and puts its result on that grid. */
  lemma RoundOnGrid(x: real, decimals: int)
    ensures OnGrid(x, decimals) ==> Round(x, decimals) == x
    ensures OnGrid(Round(x, decimals), decimals)
  {
    if decimals >= 0 {
      var n := RoundHalfEven(Scale(x, decimals));
      ScaleInverse(n as real, decimals);
      ScaleInverse(x, decimals);
      WholeInt(n);
    } else {
      var n := RoundHalfEven(Unscale(x, -decimals));
      ScaleInverse(n as real, -decimals);
      ScaleInverse(x, -decimals);
      WholeInt(n);
    }
  }

  lemma RoundIdempotent(x: real, decimals: int)
    ensures Round(Round(x, decimals), decimals) == Round(x, decimals)
  {
    RoundOnGrid(x, decimals);
    RoundOnGrid(Round(x, decimals), decimals);
  }

  function RoundPoint(p: Point, decimals: int): Point
  {
    Point(Round(p.x, decimals), Round(p.y, decimals))
  }

  function RoundRing(r: Ring, decimals: int): (o: Ring)
    ensures |o| == |r|
    ensures forall i :: 0 <= i < |r| ==> o[i] == RoundPoint(r[i], decimals)
  {
    seq(|r|, i requires 0 <= i < |r| => RoundPoint(r[i], decimals))
  }

  // ---------------------------------------------------------------- runs

  /** The points at parameters ts along the segment from p to q. */
  function Run(p: Point, q: Point, ts: seq<real>): (r: Ring)
    ensures |r| == |ts|
    ensures forall j :: 0 <= j < |ts| ==> r[j] == Lerp(p, q, ts[j])
  {
    seq(|ts|, j requires 0 <= j < |ts| => Lerp(p, q, ts[j]))
  }

  function SumLengths(ps: seq<seq<real>>): nat
  {
    if |ps| == 0 then 0 else |ps[0]| + SumLengths(ps[1..])
  }

  /** Where the run of segment i starts in the output of `Runs`. */
  function Offset(ps: seq<seq<real>>, i: nat): nat
    requires i <= |ps|
  {
    SumLengths(ps[..i])
  }

  /**
   * Segment i of the ring (from ring[i] to ring[i+1]) replaced by the points
   * at parameters ps[i] along it, followed by the ring's last vertex.
   */
  function Runs(ring: Ring, ps: seq<seq<real>>): (r: Ring)
    requires |ring| >= 1 && |ps| == |ring| - 1
    ensures |r| == SumLengths(ps) + 1
    ensures r[|r| - 1] == ring[|ring| - 1]
    decreases |ps|
  {
    if |ps| == 0 then [ring[0]]
    else Run(ring[0], ring[1], ps[0]) + Runs(ring[1..], ps[1..])
  }

  /** Every segment's run starts at its first vertex, or the segment has length zero. */
  predicate SegmentsStart(ring: Ring, ps: seq<seq<real>>)
    requires |ps| == |ring| - 1
  {
    forall i :: 0 <= i < |ps| ==> (|ps[i]| > 0 && ps[i][0] == 0.0) || ring[i] == ring[i + 1]
  }

  lemma {:induction false} SumLengthsPrefix(ps: seq<seq<real>>, i: nat)
    requires i < |ps|
    ensures SumLengths(ps[..i + 1]) == SumLengths(ps[..i]) + |ps[i]|
  {
    if i == 0 {
      assert ps[..1][1..] == [];
    } else {
      assert ps[..i + 1][1..] == ps[1..][..i];
      assert ps[..i][1..] == ps[1..][..i - 1];
      SumLengthsPrefix(ps[1..], i - 1);
    }
  }

  lemma {:induction false} OffsetShift(ps: seq<seq<real>>, i: nat)
    requires 1 <= i <= |ps|
    ensures Offset(ps, i) == |ps[0]| + Offset(ps[1..], i - 1)
  {
    assert ps[..i][1..] == ps[1..][..i - 1];
  }

  /** The j-th point of segment i's run sits at parameter ps[i][j] along that segment. */
  lemma {:induction false} RunsAt(ring: Ring, ps: seq<seq<real>>, i: nat, j: nat)
    requires |ring| >= 1 && |ps| == |ring| - 1
    requires i < |ps| && j < |ps[i]|
    ensures Offset(ps, i) + j < |Runs(ring, ps)|
    ensures Runs(ring, ps)[Offset(ps, i) + j] == Lerp(ring[i], ring[i + 1], ps[i][j])
    decreases i
  {
    SumLengthsPrefix(ps, i);
    assert ps[..|ps|] == ps;
    SumLengthsMonotone(ps, i + 1, |ps|);
    if i > 0 {
      OffsetShift(ps, i);
      RunsAt(ring[1..], ps[1..], i - 1, j);
    }
  }

  lemma {:induction false} SumLengthsMonotone(ps: seq<seq<real>>, i: nat, k: nat)
    requires i <= k <= |ps|
    ensures SumLengths(ps[..i]) <= SumLengths(ps[..k])
    decreases k - i
  {
    if i < k {
      SumLengthsPrefix(ps, i);
      SumLengthsMonotone(ps, i + 1, k);
    }
  }

  lemma {:induction false} RunsFirst(ring: Ring, ps: seq<seq<real>>)
    requires |ring| >= 1 && |ps| == |ring| - 1
    requires SegmentsStart(ring, ps)
    ensures Runs(ring, ps)[0] == ring[0]
    decreases |ps|
  {
    if |ps| > 0 {
      if |ps[0]| == 0 {
        assert ring[0] == ring[1];
        assert SegmentsStart(ring[1..], ps[1..]) by {
          forall i | 0 <= i < |ps| - 1
            ensures (|ps[1..][i]| > 0 && ps[1..][i][0] == 0.0) || ring[1..][i] == ring[1..][i + 1]
          {
            assert ps[1..][i] == ps[i + 1];
          }
        }
        RunsFirst(ring[1..], ps[1..]);
      }
    }
  }

  /** Two points on one line through the origin-relative cross product scale with their parameter gap. */
  lemma CrossOnLine(p: Point, q: Point, s: real, t: real)
    ensures Cross(Lerp(p, q, s), Lerp(p, q, t)) == (t - s) * Cross(p, q)
  {
    var dx := q.x - p.x;
    var dy := q.y - p.y;
    calc {
      Cross(Lerp(p, q, s), Lerp(p, q, t));
      (p.x + s * dx) * (p.y + t * dy) - (p.y + s * dy) * (p.x + t * dx);
      t * (p.x * dy - p.y * dx) - s * (p.x * dy - p.y * dx);
      (t - s) * (p.x * dy - p.y * dx);
      (t - s) * Cross(p, q);
    }
  }

  /** The shoelace sum of a run closed off by its end point telescopes to one edge. */
  lemma {:induction false} RunShoelace(p: Point, q: Point, ts: seq<real>)
    requires |ts| >= 1
    ensures Shoelace(Run(p, q, ts) + [q]) == (1.0 - ts[0]) * Cross(p, q)
    decreases |ts|
  {
    var r := Run(p, q, ts) + [q];
    assert Lerp(p, q, 1.0) == q;
    if |ts| == 1 {
      assert r[1..] == [q];
      CrossOnLine(p, q, ts[0], 1.0);
    } else {
      assert r[1..] == Run(p, q, ts[1..]) + [q];
      RunShoelace(p, q, ts[1..]);
      CrossOnLine(p, q, ts[0], ts[1]);
    }
  }

  /** Replacing segments by runs that start at their first vertex keeps the signed area. */
  lemma {:induction false} RunsKeepShoelace(ring: Ring, ps: seq<seq<real>>)
    requires |ring| >= 1 && |ps| == |ring| - 1
    requires SegmentsStart(ring, ps)
    ensures Shoelace(Runs(ring, ps)) == Shoelace(ring)
    decreases |ps|
  {
    if |ps| > 0 {
      var rest := Runs(ring[1..], ps[1..]);
      assert SegmentsStart(ring[1..], ps[1..]) by {
        forall i | 0 <= i < |ps| - 1
          ensures (|ps[1..][i]| > 0 && ps[1..][i][0] == 0.0) || ring[1..][i] == ring[1..][i + 1]
        {
          assert ps[1..][i] == ps[i + 1];
        }
      }
      RunsKeepShoelace(ring[1..], ps[1..]);
      RunsFirst(ring[1..], ps[1..]);
      assert Shoelace(ring) == Cross(ring[0], ring[1]) + Shoelace(ring[1..]);
      if |ps[0]| == 0 {
        CrossSelf(ring[0]);
        assert Runs(ring, ps) == rest;
      } else {
        var run := Run(ring[0], ring[1], ps[0]);
        ShoelaceAppend(run, rest);
        ShoelaceAppend(run, [ring[1]]);
        RunShoelace(ring[0], ring[1], ps[0]);
        if ps[0][0] != 0.0 {
          CrossSelf(ring[0]);
        }
      }
    }
  }

  // ---------------------------------------------------------------- by factor

  /** The index at which `np.interp` places vertex k when every segment gets f indexes: k*f. */
  function VertexIndex(k: int, f: int): int
  {
    k * f
  }

  lemma VertexIndexStep(k: int, f: int)
    ensures VertexIndex(k + 1, f) == VertexIndex(k, f) + f
  {
  }

  lemma VertexIndexMonotone(a: int, b: int, f: int)
    requires f >= 0 && a <= b
    ensures VertexIndex(a, f) <= VertexIndex(b, f)
  {
    assert VertexIndex(b, f) - VertexIndex(a, f) == (b - a) * f;
  }

  /** Euclidean division is determined by its quotient and remainder. */
  lemma DivModUnique(t: int, f: int, q: int, r: int)
    requires f > 0 && 0 <= r < f && t == VertexIndex(q, f) + r
    ensures t / f == q && t % f == r
  {
    var q' := t / f;
    assert t == VertexIndex(q', f) + t % f;
    if q' < q {
      VertexIndexMonotone(q' + 1, q, f);
      VertexIndexStep(q', f);
    } else if q < q' {
      VertexIndexMonotone(q + 1, q', f);
      VertexIndexStep(q, f);
    }
  }

  lemma DivBound(t: nat, f: nat, m: nat)
    requires f >= 1 && t <= VertexIndex(m, f)
    ensures t / f <= m
  {
    var q := t / f;
    assert t == VertexIndex(q, f) + t % f;
    if q > m {
      VertexIndexMonotone(m + 1, q, f);
      VertexIndexStep(m, f);
    }
  }

  /** The fractions j/f, 0 <= j < f: the parameters `np.interp` uses inside one segment. */
  function Fractions(f: nat): (ts: seq<real>)
    requires f >= 1
    ensures |ts| == f && ts[0] == 0.0
    ensures forall j :: 0 <= j < f ==> 0.0 <= ts[j] < 1.0
  {
    seq(f, j requires 0 <= j < f => j as real / f as real)
  }

  function FactorParams(ring: Ring, f: nat): (ps: seq<seq<real>>)
    requires f >= 1 && |ring| >= 1
    ensures |ps| == |ring| - 1
    ensures SegmentsStart(ring, ps)
  {
    seq(|ring| - 1, _ => Fractions(f))
  }

  /**
   * `np.interp` at index t, with the ring's vertices placed at the indexes
   * 0, f, 2f, ...: vertex k at index k*f, and linear interpolation between.
   */
  function InterpAt(ring: Ring, f: nat, t: nat): Point
    requires f >= 1 && |ring| >= 1 && t <= VertexIndex(|ring| - 1, f)
  {
    var k := t / f;
    DivBound(t, f, |ring| - 1);
    if k == |ring| - 1 then ring[k]
    else Lerp(ring[k], ring[k + 1], (t % f) as real / f as real)
  }

  /**
   * `densify_by_factor` before rounding, for factor >= 1: the values
   * `np.interp` produces at the indexes 0 .. (n-1)*f.
   */
  function FactorPoints(ring: Ring, f: nat): (r: Ring)
    requires f >= 1 && |ring| >= 1
    ensures |r| == VertexIndex(|ring| - 1, f) + 1
  {
    seq(VertexIndex(|ring| - 1, f) + 1, t requires 0 <= t <= VertexIndex(|ring| - 1, f) => InterpAt(ring, f, t))
  }

  lemma {:induction false} OffsetUniform(ps: seq<seq<real>>, f: nat, i: nat)
    requires i <= |ps|
    requires forall k :: 0 <= k < |ps| ==> |ps[k]| == f
    ensures Offset(ps, i) == VertexIndex(i, f)
  {
    if i > 0 {
      SumLengthsPrefix(ps, i - 1);
      OffsetUniform(ps, f, i - 1);
      VertexIndexStep(i - 1, f);
    }
  }

  /** Index k*f+j of the interpolated list lies at j/f of the way from vertex k to vertex k+1. */
  lemma FactorPointsBetween(ring: Ring, f: nat, k: nat, j: nat)
    requires f >= 1 && k < |ring| - 1 && j < f
    ensures VertexIndex(k, f) + j < |FactorPoints(ring, f)|
    ensures FactorPoints(ring, f)[VertexIndex(k, f) + j] == Lerp(ring[k], ring[k + 1], j as real / f as real)
  {
    VertexIndexMonotone(k + 1, |ring| - 1, f);
    VertexIndexStep(k, f);
    DivModUnique(VertexIndex(k, f) + j, f, k, j);
  }

  /** Vertex k of the ring is kept, at index k*f. */
  lemma FactorPointsKeepVertices(ring: Ring, f: nat, k: nat)
    requires f >= 1 && k < |ring|
    ensures VertexIndex(k, f) < |FactorPoints(ring, f)|
    ensures FactorPoints(ring, f)[VertexIndex(k, f)] == ring[k]
  {
    VertexIndexMonotone(k, |ring| - 1, f);
    DivModUnique(VertexIndex(k, f), f, k, 0);
    if k < |ring| - 1 {
      assert Lerp(ring[k], ring[k + 1], 0.0) == ring[k];
    }
  }

  lemma FactorPointAt(ring: Ring, f: nat, t: nat)
    requires f >= 1 && |ring| >= 1 && t <= VertexIndex(|ring| - 1, f)
    ensures t < |Runs(ring, FactorParams(ring, f))|
    ensures FactorPoints(ring, f)[t] == Runs(ring, FactorParams(ring, f))[t]
  {
    var ps := FactorParams(ring, f);
    OffsetUniform(ps, f, |ps|);
    assert ps[..|ps|] == ps;
    var k := t / f;
    var j := t % f;
    assert t == VertexIndex(k, f) + j;
    DivBound(t, f, |ring| - 1);
    if k < |ring| - 1 {
      OffsetUniform(ps, f, k);
      RunsAt(ring, ps, k, j);
    }
  }

  /** The interpolated list starts and ends at the ring's first and last vertices. */
  lemma FactorPointsEnds(ring: Ring, f: nat)
    requires f >= 1 && |ring| >= 1
    ensures FactorPoints(ring, f)[0] == ring[0]
    ensures FactorPoints(ring, f)[|FactorPoints(ring, f)| - 1] == ring[|ring| - 1]
  {
    FactorPointsKeepVertices(ring, f, 0);
    FactorPointsKeepVertices(ring, f, |ring| - 1);
  }

  /** The interpolation formula and the segment-by-segment construction agree. */
  lemma FactorPointsAreRuns(ring: Ring, f: nat)
    requires f >= 1 && |ring| >= 1
    ensures FactorPoints(ring, f) == Runs(ring, FactorParams(ring, f))
  {
    var ps := FactorParams(ring, f);
    var a := FactorPoints(ring, f);
    var b := Runs(ring, ps);
    OffsetUniform(ps, f, |ps|);
    assert ps[..|ps|] == ps;
    forall t | 0 <= t < |a|
      ensures a[t] == b[t]
    {
      FactorPointAt(ring, f, t);
    }
  }

  // ---------------------------------------------------------------- by distance

  function Ceil(r: real): (n: int)
    ensures n as real >= r && (n - 1) as real < r
  {
    if IsWhole(r) then r.Floor else r.Floor + 1
  }

  /** The length of `np.arange(r)`: 0 when r <= 0, otherwise the ceiling of r. */
  function Steps(r: real): (n: nat)
    ensures r <= 0.0 ==> n == 0
    ensures r > 0.0 ==> n >= 1 && n as real >= r && (n - 1) as real < r
  {
    if r <= 0.0 then 0 else Ceil(r)
  }

  /** The step count of the segment from p to q: its length over the distance. */
  function SegmentSteps(len: (Point, Point) -> real, p: Point, q: Point, d: real): real
    requires d != 0.0
  {
    len(p, q) / d
  }

  /** `np.arange(steps)` divided by steps: the parameters of the points emitted along a segment. */
  function StepParams(r: real): (ts: seq<real>)
    ensures |ts| == Steps(r)
    ensures |ts| > 0 ==> ts[0] == 0.0
    ensures forall j :: 0 <= j < |ts| ==> 0.0 <= ts[j] < 1.0 && ts[j] * r == j as real
  {
    var ts := seq(Steps(r), j requires 0 <= j < Steps(r) => j as real / r);
    assert forall j :: 0 <= j < |ts| ==> 0.0 <= ts[j] < 1.0 && ts[j] * r == j as real by {
      forall j | 0 <= j < |ts|
        ensures 0.0 <= ts[j] < 1.0 && ts[j] * r == j as real
      {
        StepFraction(j as real, r);
      }
    }
    ts
  }

  lemma StepFraction(j: real, r: real)
    requires 0.0 <= j && j < r
    ensures 0.0 <= j / r < 1.0 && (j / r) * r == j
  {
  }

  function DistanceParams(ring: Ring, d: real, len: (Point, Point) -> real): (ps: seq<seq<real>>)
    requires |ring| >= 1 && d != 0.0
    ensures |ps| == |ring| - 1
    ensures forall i :: 0 <= i < |ring| - 1 ==> ps[i] == StepParams(SegmentSteps(len, ring[i], ring[i + 1], d))
  {
    seq(|ring| - 1, i requires 0 <= i < |ring| - 1 => StepParams(SegmentSteps(len, ring[i], ring[i + 1], d)))
  }

  /** The number of points the segments of a ring emit. */
  function StepTotal(ring: Ring, d: real, len: (Point, Point) -> real): nat
    requires d != 0.0
  {
    if |ring| < 2 then 0 else Steps(SegmentSteps(len, ring[0], ring[1], d)) + StepTotal(ring[1..], d, len)
  }

  /** `densify_by_distance` before rounding, for a non-zero distance and a non-empty ring. */
  function DistancePoints(ring: Ring, d: real, len: (Point, Point) -> real): (r: Ring)
    requires |ring| >= 1 && d != 0.0
    ensures |r| >= 1 && r[|r| - 1] == ring[|ring| - 1]
  {
    Runs(ring, DistanceParams(ring, d, len))
  }

  /** Every segment emits `ceil(length / distance)` points (none when that is not positive), plus the end point. */
  lemma {:induction false} DistanceCount(ring: Ring, d: real, len: (Point, Point) -> real)
    requires |ring| >= 1 && d != 0.0
    ensures |DistancePoints(ring, d, len)| == StepTotal(ring, d, len) + 1
    decreases |ring|
  {
    var ps := DistanceParams(ring, d, len);
    if |ring| >= 2 {
      assert ps[1..] == DistanceParams(ring[1..], d, len);
      DistanceCount(ring[1..], d, len);
    }
  }

  lemma SqDistLerp(p: Point, q: Point, t: real)
    ensures SqDist(p, Lerp(p, q, t)) == t * t * SqDist(p, q)
  {
    var dx := q.x - p.x;
    var dy := q.y - p.y;
    calc {
      SqDist(p, Lerp(p, q, t));
      (t * dx) * (t * dx) + (t * dy) * (t * dy);
      t * t * (dx * dx + dy * dy);
    }
  }

  /**
   * The j-th point emitted for segment i lies on that segment, short of its
   * end, at the parameter j / (length / distance): j distances along the
   * segment. With a true length (`Measures`), `SqDistLerp` turns
   * this into a Euclidean distance of j*d from the segment's start.
   */
  lemma DistancePointOnSegment(ring: Ring, d: real, len: (Point, Point) -> real, i: nat, j: nat)
    requires |ring| >= 2 && d != 0.0 && i < |ring| - 1
    requires j < Steps(SegmentSteps(len, ring[i], ring[i + 1], d))
    ensures Offset(DistanceParams(ring, d, len), i) + j < |DistancePoints(ring, d, len)|
    ensures 0.0 <= DistanceParams(ring, d, len)[i][j] < 1.0
    ensures DistancePoints(ring, d, len)[Offset(DistanceParams(ring, d, len), i) + j]
            == Lerp(ring[i], ring[i + 1], DistanceParams(ring, d, len)[i][j])
    ensures SegmentSteps(len, ring[i], ring[i + 1], d) > 0.0
    ensures DistanceParams(ring, d, len)[i][j] == j as real / SegmentSteps(len, ring[i], ring[i + 1], d)
  {
    var ps := DistanceParams(ring, d, len);
    assert ps[i] == StepParams(SegmentSteps(len, ring[i], ring[i + 1], d));
    RunsAt(ring, ps, i, j);
  }

  function Squared(x: real): real
  {
    x * x
  }

  lemma ParamDistance(l: real, d: real, s: real, j: real, t: real)
    requires l > 0.0 && d > 0.0 && s == l / d
    requires t == j / s
    ensures t * t * (l * l) == (j * d) * (j * d)
  {
    assert t * l == j * d;
    assert t * t * (l * l) == (t * l) * (t * l);
  }

  /** The point at parameter j / (l / d) of a segment of true length l lies j*d from its start. */
  lemma LerpAtDistance(len: (Point, Point) -> real, p: Point, q: Point, pt: Point, d: real, j: nat, t: real)
    requires Measures(len, p, q) && d > 0.0
    requires SegmentSteps(len, p, q, d) > 0.0
    requires t == j as real / SegmentSteps(len, p, q, d)
    requires pt == Lerp(p, q, t)
    ensures SqDist(p, pt) == Squared(j as real * d)
  {
    SqDistLerp(p, q, t);
    ParamDistance(len(p, q), d, SegmentSteps(len, p, q, d), j as real, t);
  }

  /**
   * When `len` is the Euclidean length of segment i, its j-th emitted point
   * lies exactly j distances from the segment's start.
   */
  lemma DistancePointAtDistance(ring: Ring, d: real, len: (Point, Point) -> real, i: nat, j: nat)
    requires |ring| >= 2 && d > 0.0 && i < |ring| - 1
    requires Measures(len, ring[i], ring[i + 1])
    requires j < Steps(SegmentSteps(len, ring[i], ring[i + 1], d))
    ensures Offset(DistanceParams(ring, d, len), i) + j < |DistancePoints(ring, d, len)|
    ensures SqDist(ring[i], DistancePoints(ring, d, len)[Offset(DistanceParams(ring, d, len), i) + j])
            == Squared(j as real * d)
  {
    DistancePointOnSegment(ring, d, len, i, j);
    LerpAtDistance(len, ring[i], ring[i + 1], DistancePoints(ring, d, len)[Offset(DistanceParams(ring, d, len), i) + j],
                   d, j, DistanceParams(ring, d, len)[i][j]);
  }

  /**
   * Every segment's length is positive or the segment is a repeated vertex.
   * (A zero-length segment emits no points; that only drops a repeat.)
   */
  predicate SegmentsMeasured(ring: Ring, len: (Point, Point) -> real)
  {
    forall i :: 0 <= i < |ring| - 1 ==> len(ring[i], ring[i + 1]) > 0.0 || ring[i] == ring[i + 1]
  }

  /** With a positive distance, every segment of positive length starts its run at its first vertex. */
  lemma DistanceSegmentsStart(ring: Ring, d: real, len: (Point, Point) -> real)
    requires |ring| >= 1 && d > 0.0
    requires SegmentsMeasured(ring, len)
    ensures SegmentsStart(ring, DistanceParams(ring, d, len))
  {
    var ps := DistanceParams(ring, d, len);
    forall i | 0 <= i < |ps|
      ensures (|ps[i]| > 0 && ps[i][0] == 0.0) || ring[i] == ring[i + 1]
    {
      if ring[i] != ring[i + 1] {
        DivPositive(len(ring[i], ring[i + 1]), d);
      }
    }
  }

  /** Every vertex of the ring appears among the points built from runs that start at their segment's first vertex. */
  lemma {:induction false} RunsKeepVertices(ring: Ring, ps: seq<seq<real>>, k: nat)
    requires |ring| >= 1 && |ps| == |ring| - 1
    requires SegmentsStart(ring, ps)
    requires k < |ring|
    ensures ring[k] in Runs(ring, ps)
    decreases |ring| - k
  {
    if k < |ring| - 1 {
      if |ps[k]| > 0 && ps[k][0] == 0.0 {
        RunsAt(ring, ps, k, 0);
        assert Lerp(ring[k], ring[k + 1], 0.0) == ring[k];
      } else {
        RunsKeepVertices(ring, ps, k + 1);
      }
    }
  }

  /**
   * Densifying by a positive distance keeps every original vertex when each
   * segment is measured or degenerate.
   */
  lemma DistancePointsKeepVertices(ring: Ring, d: real, len: (Point, Point) -> real, k: nat)
    requires |ring| >= 1 && d > 0.0
    requires SegmentsMeasured(ring, len)
    requires k < |ring|
    ensures ring[k] in DistancePoints(ring, d, len)
  {
    DistanceSegmentsStart(ring, d, len);
    RunsKeepVertices(ring, DistanceParams(ring, d, len), k);
  }

  lemma DivPositive(l: real, d: real)
    requires l > 0.0 && d > 0.0
    ensures l / d > 0.0
  {
  }

  // ---------------------------------------------------------------- ring level

  /** The densification asked for: `factor` or `distance`. */
  datatype Spacing = ByFactor(factor: int) | ByDistance(distance: real)

  /** The inputs on which the numpy code raises instead of returning. */
  predicate RingFails(ring: Ring, sp: Spacing)
  {
    match sp
    case ByFactor(f) => f == 0 || |ring| == 0
    case ByDistance(d) => |ring| == 0 || (d == 0.0 && |ring| >= 2)
  }

  /** `densify_by_factor` without rounding, including numpy's errors for a zero factor and an empty list. */
  function InterpolateByFactor(ring: Ring, f: int): (r: Result<Ring>)
    ensures r.Failure? <==> f == 0 || |ring| == 0
    ensures f == 0 ==> r == Failure(ZeroDivisionError(ZeroStepMessage))
    ensures f != 0 && |ring| == 0 ==> r == Failure(IndexError(EmptyIndexMessage))
    ensures f < 0 && |ring| >= 2 ==> r == Success([])
    ensures f >= 1 && |ring| >= 1 ==> r.Success? && |r.value| == VertexIndex(|ring| - 1, f) + 1
    ensures f >= 1 && |ring| >= 1 ==> r == Success(FactorPoints(ring, f))
    ensures r.Success? && |ring| == 1 ==> r.value == ring
    ensures r.Success? && |r.value| > 0 ==> r.value[|r.value| - 1] == ring[|ring| - 1]
  {
    if f == 0 then Failure(ZeroDivisionError(ZeroStepMessage))
    else if |ring| == 0 then Failure(IndexError(EmptyIndexMessage))
    else if f < 0 then Success(if |ring| == 1 then ring else [])
    else
      FactorPointsEnds(ring, f);
      Success(FactorPoints(ring, f))
  }

  /** `densify_by_distance` without rounding, including numpy's errors for an empty list and a zero distance. */
  function InterpolateByDistance(ring: Ring, d: real, len: (Point, Point) -> real): (r: Result<Ring>)
    ensures r.Failure? <==> |ring| == 0 || (d == 0.0 && |ring| >= 2)
    ensures |ring| == 0 ==> r == Failure(IndexError(TooManyIndicesMessage))
    ensures d == 0.0 && |ring| >= 2 ==> r.Failure? && r.error.ValueError?
    ensures d != 0.0 && |ring| >= 2 ==> r == Success(DistancePoints(ring, d, len))
    ensures r.Success? && |ring| == 1 ==> r.value == ring
    ensures r.Success? ==> |r.value| > 0 && r.value[|r.value| - 1] == ring[|ring| - 1]
  {
    if |ring| == 0 then Failure(IndexError(TooManyIndicesMessage))
    else if |ring| == 1 then Success(ring)
    else if d == 0.0 then
      Failure(ValueError(if len(ring[0], ring[1]) == 0.0 then NanLengthMessage else InfiniteLengthMessage))
    else Success(DistancePoints(ring, d, len))
  }

  /**
   * `densify_by_factor` / `densify_by_distance` without the final rounding
   * (the form the earlier `RasterFootprint` class uses), including the
   * exceptions numpy raises for an empty list, a zero factor and a zero
   * distance.
   */
  function Interpolate(ring: Ring, sp: Spacing, len: (Point, Point) -> real): (r: Result<Ring>)
    ensures r.Failure? <==> RingFails(ring, sp)
    ensures sp.ByFactor? && sp.factor == 0 ==> r == Failure(ZeroDivisionError(ZeroStepMessage))
    ensures sp.ByFactor? && sp.factor != 0 && |ring| == 0 ==> r == Failure(IndexError(EmptyIndexMessage))
    ensures sp.ByDistance? && |ring| == 0 ==> r == Failure(IndexError(TooManyIndicesMessage))
    ensures sp.ByDistance? && sp.distance == 0.0 && |ring| >= 2 ==> r.Failure? && r.error.ValueError?
    ensures sp.ByFactor? && sp.factor < 0 && |ring| >= 2 ==> r == Success([])
    ensures sp.ByFactor? && sp.factor >= 1 && |ring| >= 1 ==>
      r.Success? && |r.value| == VertexIndex(|ring| - 1, sp.factor) + 1
    ensures sp.ByFactor? && sp.factor >= 1 && |ring| >= 1 ==> r == Success(FactorPoints(ring, sp.factor))
    ensures sp.ByDistance? ==> r == InterpolateByDistance(ring, sp.distance, len)
    ensures r.Success? && |ring| == 1 ==> r.value == ring
    ensures r.Success? && |r.value| > 0 ==> r.value[|r.value| - 1] == ring[|ring| - 1]
  {
    match sp
    case ByFactor(f) => InterpolateByFactor(ring, f)
    case ByDistance(d) => InterpolateByDistance(ring, d, len)
  }

  /** Without rounding, densifying keeps a ring's signed area, so its winding too. */
  lemma InterpolateKeepsShoelace(ring: Ring, sp: Spacing, len: (Point, Point) -> real)
    requires sp.ByFactor? ==> sp.factor >= 1
    requires sp.ByDistance? ==> sp.distance > 0.0
    requires sp.ByDistance? ==> SegmentsMeasured(ring, len)
    requires |ring| >= 1
    ensures Interpolate(ring, sp, len).Success?
    ensures Shoelace(Interpolate(ring, sp, len).value) == Shoelace(ring)
  {
    match sp
    case ByFactor(f) =>
      FactorPointsAreRuns(ring, f);
      RunsKeepShoelace(ring, FactorParams(ring, f));
    case ByDistance(d) =>
      if |ring| >= 2 {
        DistanceSegmentsStart(ring, d, len);
        RunsKeepShoelace(ring, DistanceParams(ring, d, len));
      }
  }

  /** Without rounding, densifying a closed ring gives a closed ring. */
  lemma InterpolateKeepsClosed(ring: Ring, sp: Spacing, len: (Point, Point) -> real)
    requires sp.ByFactor? ==> sp.factor >= 1
    requires sp.ByDistance? ==> sp.distance > 0.0
    requires sp.ByDistance? ==> SegmentsMeasured(ring, len)
    requires Closed(ring)
    ensures Interpolate(ring, sp, len).Success?
    ensures Closed(Interpolate(ring, sp, len).value)
  {
    match sp
    case ByFactor(f) =>
      FactorPointsKeepVertices(ring, f, 0);
    case ByDistance(d) =>
      if |ring| >= 2 {
        DistanceSegmentsStart(ring, d, len);
        RunsFirst(ring, DistanceParams(ring, d, len));
      }
  }

  /** `densify_by_factor` / `densify_by_distance`: the interpolated points, rounded to `precision` places. */
  function DensifyRing(ring: Ring, sp: Spacing, precision: int, len: (Point, Point) -> real): (r: Result<Ring>)
    ensures r.Failure? <==> RingFails(ring, sp)
    ensures r.Failure? ==> r == Failure(Interpolate(ring, sp, len).error)
    ensures r.Success? ==> |r.value| == |Interpolate(ring, sp, len).value|
    ensures r.Success? ==> forall i :: 0 <= i < |r.value| ==>
      r.value[i] == RoundPoint(Interpolate(ring, sp, len).value[i], precision)
  {
    var pts :- Interpolate(ring, sp, len);
    Success(RoundRing(pts, precision))
  }

  /** By factor, vertex k of the ring survives, rounded, at index k*factor. */
  lemma DensifyByFactorKeepsVertices(ring: Ring, f: int, precision: int, len: (Point, Point) -> real, k: nat)
    requires f >= 1 && k < |ring|
    ensures DensifyRing(ring, ByFactor(f), precision, len).Success?
    ensures VertexIndex(k, f) < |DensifyRing(ring, ByFactor(f), precision, len).value|
    ensures DensifyRing(ring, ByFactor(f), precision, len).value[VertexIndex(k, f)] == RoundPoint(ring[k], precision)
  {
    FactorPointsKeepVertices(ring, f, k);
  }

  /** Each output coordinate is within half a unit in the last kept place of the exact interpolation. */
  lemma DensifyRingNearExact(ring: Ring, sp: Spacing, precision: nat, len: (Point, Point) -> real, i: nat)
    requires DensifyRing(ring, sp, precision, len).Success?
    requires i < |DensifyRing(ring, sp, precision, len).value|
    ensures var exact := Interpolate(ring, sp, len).value[i];
            var got := DensifyRing(ring, sp, precision, len).value[i];
            -1.0 <= 2.0 * Scale(got.x - exact.x, precision) <= 1.0 &&
            -1.0 <= 2.0 * Scale(got.y - exact.y, precision) <= 1.0
  {
    var exact := Interpolate(ring, sp, len).value[i];
    var got := DensifyRing(ring, sp, precision, len).value[i];
    assert got == RoundPoint(exact, precision);
    assert got.x == Round(exact.x, precision) && got.y == Round(exact.y, precision);
  }

  /** Densifies the rings in order; the first one that raises ends the list. */
  function DensifyRings(rings: seq<Ring>, sp: Spacing, precision: int, len: (Point, Point) -> real): (r: Result<seq<Ring>>)
    ensures r.Failure? <==> exists i :: 0 <= i < |rings| && RingFails(rings[i], sp)
    ensures r.Success? ==> |r.value| == |rings|
    ensures r.Success? ==> forall i :: 0 <= i < |rings| ==> r.value[i] == DensifyRing(rings[i], sp, precision, len).value
  {
    if |rings| == 0 then Success([])
    else
      var first :- DensifyRing(rings[0], sp, precision, len);
      var rest :- DensifyRings(rings[1..], sp, precision, len);
      assert forall i :: 1 <= i < |rings| ==> rings[1..][i - 1] == rings[i];
      Success([first] + rest)
  }

  // ---------------------------------------------------------------- polygon level

  /** Some ring of the polygon (exterior or hole) makes numpy raise. */
  predicate PolygonFails(p: Polygon, sp: Spacing)
  {
    RingFails(p.exterior, sp) || exists i :: 0 <= i < |p.holes| && RingFails(p.holes[i], sp)
  }

  /**
   * `densify_polygon`: both options given is an error; otherwise the one
   * given densifies the exterior and every hole; neither returns the polygon
   * unchanged.
   */
  function DensifyPolygon(p: Polygon, factor: Option<int>, distance: Option<real>, precision: int,
                          len: (Point, Point) -> real): (r: Result<Polygon>)
    ensures factor.Some? && distance.Some? ==> r == Failure(ValueError(BothOptionsMessage))
    ensures factor.None? && distance.None? ==> r == Success(p)
    ensures factor.Some? && distance.None? ==> (r.Failure? <==> PolygonFails(p, ByFactor(factor.value)))
    ensures distance.Some? && factor.None? ==> (r.Failure? <==> PolygonFails(p, ByDistance(distance.value)))
    ensures r.Success? ==> |r.value.holes| == |p.holes|
    ensures r.Success? && factor.Some? && factor.value >= 1 ==>
      |r.value.exterior| == VertexIndex(|p.exterior| - 1, factor.value) + 1 &&
      forall i :: 0 <= i < |p.holes| ==> |r.value.holes[i]| == VertexIndex(|p.holes[i]| - 1, factor.value) + 1
    ensures r.Success? && factor.Some? && distance.None? ==>
      r.value.exterior == DensifyRing(p.exterior, ByFactor(factor.value), precision, len).value &&
      forall i :: 0 <= i < |p.holes| ==> r.value.holes[i] == DensifyRing(p.holes[i], ByFactor(factor.value), precision, len).value
    ensures r.Success? && distance.Some? && factor.None? ==>
      r.value.exterior == DensifyRing(p.exterior, ByDistance(distance.value), precision, len).value &&
      forall i :: 0 <= i < |p.holes| ==> r.value.holes[i] == DensifyRing(p.holes[i], ByDistance(distance.value), precision, len).value
  {
    if factor.Some? && distance.Some? then Failure(ValueError(BothOptionsMessage))
    else if factor.None? && distance.None? then Success(p)
    else
      var sp := if factor.Some? then ByFactor(factor.value) else ByDistance(distance.value);
      var shell :- DensifyRing(p.exterior, sp, precision, len);
      var holes :- DensifyRings(p.holes, sp, precision, len);
      Success(Polygon(shell, holes))
  }

  /** `densify_multipolygon`: every polygon densified, in order. */
  function DensifyMultiPolygon(ps: seq<Polygon>, factor: Option<int>, distance: Option<real>, precision: int,
                               len: (Point, Point) -> real): (r: Result<seq<Polygon>>)
    ensures r.Failure? <==> exists i :: 0 <= i < |ps| && DensifyPolygon(ps[i], factor, distance, precision, len).Failure?
    ensures r.Success? ==> |r.value| == |ps|
    ensures |ps| > 0 && factor.Some? && distance.Some? ==> r == Failure(ValueError(BothOptionsMessage))
    ensures r.Success? ==> forall i :: 0 <= i < |ps| ==> r.value[i] == DensifyPolygon(ps[i], factor, distance, precision, len).value
  {
    if |ps| == 0 then Success([])
    else
      var first := DensifyPolygon(ps[0], factor, distance, precision, len);
      var rest := DensifyMultiPolygon(ps[1..], factor, distance, precision, len);
      DensifyMultiPolygonStep(ps, factor, distance, precision, len);
      if first.Failure? then Failure(first.error)
      else if rest.Failure? then Failure(rest.error)
      else Success([first.value] + rest.value)
  }

  lemma DensifyMultiPolygonStep(ps: seq<Polygon>, factor: Option<int>, distance: Option<real>, precision: int,
                                len: (Point, Point) -> real)
    requires |ps| > 0
    ensures (exists i :: 0 <= i < |ps| && DensifyPolygon(ps[i], factor, distance, precision, len).Failure?)
        <==> (DensifyPolygon(ps[0], factor, distance, precision, len).Failure? ||
              exists i :: 0 <= i < |ps| - 1 && DensifyPolygon(ps[1..][i], factor, distance, precision, len).Failure?)
  {
    if exists i :: 0 <= i < |ps| && DensifyPolygon(ps[i], factor, distance, precision, len).Failure? {
      var i :| 0 <= i < |ps| && DensifyPolygon(ps[i], factor, distance, precision, len).Failure?;
      if i > 0 {
        assert ps[1..][i - 1] == ps[i];
      }
    }
    if exists i :: 0 <= i < |ps| - 1 && DensifyPolygon(ps[1..][i], factor, distance, precision, len).Failure? {
      var i :| 0 <= i < |ps| - 1 && DensifyPolygon(ps[1..][i], factor, distance, precision, len).Failure?;
      assert ps[1..][i] == ps[i + 1];
    }
  }

  /** `densify_geometry`: dispatch on Polygon or MultiPolygon; anything else is a TypeError. */
  function DensifyGeometry(s: Shape, factor: Option<int>, distance: Option<real>, precision: int,
                           len: (Point, Point) -> real): (r: Result<Geometry>)
    ensures s.NonPolygonal? ==> r == Failure(TypeError(GeometryTypeMessage))
    ensures r.Success? ==> s.Polygonal? && (r.value.Poly? <==> s.geometry.Poly?)
    ensures r.Success? ==> |Members(r.value)| == |Members(s.geometry)|
    ensures s.Polygonal? ==>
      (r.Failure? <==> exists i :: 0 <= i < |Members(s.geometry)| &&
                         DensifyPolygon(Members(s.geometry)[i], factor, distance, precision, len).Failure?)
    ensures r.Success? ==> forall i :: 0 <= i < |Members(s.geometry)| ==>
      Members(r.value)[i] == DensifyPolygon(Members(s.geometry)[i], factor, distance, precision, len).value
    ensures s.Polygonal? && factor.None? && distance.None? ==> r == Success(s.geometry)
    ensures s.Polygonal? && |Members(s.geometry)| > 0 && factor.Some? && distance.Some? ==>
      r == Failure(ValueError(BothOptionsMessage))
  {
    match s
    case Polygonal(Poly(p)) =>
      assert Members(s.geometry)[0] == p;
      var q :- DensifyPolygon(p, factor, distance, precision, len);
      Success(Poly(q))
    case Polygonal(Multi(ps)) =>
      assert Members(s.geometry) == ps;
      var qs :- DensifyMultiPolygon(ps, factor, distance, precision, len);
      assert factor.None? && distance.None? ==> qs == ps;
      Success(Multi(qs))
    case NonPolygonal(_) => Failure(TypeError(GeometryTypeMessage))
  }
}

=== FILE: examples.dfy ===
/**
 * Worked instances of the densifiers and of deduplication on small rings,
 * with the counts the repository's own examples quote.
 */
module Examples {
  import opened Results
  import opened Shapes
  import opened Densify
  import Reproject

  /** The closed square of side 10 with its corner at the origin. */
  const Square: Ring := [Point(0.0, 0.0), Point(10.0, 0.0), Point(10.0, 10.0), Point(0.0, 10.0), Point(0.0, 0.0)]

  /** |dx| + |dy|: the Euclidean length on axis-parallel segments. */
  function AxisLength(p: Point, q: Point): (l: real)
    ensures l >= 0.0
    ensures p.x == q.x || p.y == q.y ==> l * l == SqDist(p, q)
  {
    (if q.x >= p.x then q.x - p.x else p.x - q.x) + (if q.y >= p.y then q.y - p.y else p.y - q.y)
  }

  /** The square's corners keep their coordinates when rounded to the default precision. */
  lemma SquareOnGrid(k: nat)
    requires k < |Square|
    ensures RoundPoint(Square[k], DefaultPrecision) == Square[k]
  {
    IntOnGrid(0, DefaultPrecision);
    IntOnGrid(10, DefaultPrecision);
    RoundOnGrid(0.0, DefaultPrecision);
    RoundOnGrid(10.0, DefaultPrecision);
  }

  /** Five points at factor 2 give nine, and every corner of the square is among them. */
  lemma SquareByFactor(len: (Point, Point) -> real)
    ensures DensifyRing(Square, ByFactor(2), DefaultPrecision, len).Success?
    ensures |DensifyRing(Square, ByFactor(2), DefaultPrecision, len).value| == 9
    ensures forall k :: 0 <= k < |Square| ==> Square[k] in DensifyRing(Square, ByFactor(2), DefaultPrecision, len).value
  {
    assert VertexIndex(|Square| - 1, 2) == 8;
    forall k | 0 <= k < |Square|
      ensures Square[k] in DensifyRing(Square, ByFactor(2), DefaultPrecision, len).value
    {
      DensifyByFactorKeepsVertices(Square, 2, DefaultPrecision, len, k);
      SquareOnGrid(k);
    }
  }

  /** Every side of the square has length 10, and 10 / 3.33 lies strictly between 3 and 4. */
  lemma SquareSideSteps(i: nat)
    requires i < |Square| - 1
    ensures AxisLength(Square[i], Square[i + 1]) == 10.0
    ensures Steps(SegmentSteps(AxisLength, Square[i], Square[i + 1], 3.33)) == 4
  {
    assert 3.0 < 10.0 / 3.33 < 4.0;
  }

  lemma SquareStepTotal()
    ensures StepTotal(Square, 3.33, AxisLength) == 16
  {
    var s := Square;
    SquareSideSteps(0);
    SquareSideSteps(1);
    SquareSideSteps(2);
    SquareSideSteps(3);
    assert s[1..][0] == s[1] && s[1..][1] == s[2];
    assert s[1..][1..][0] == s[2] && s[1..][1..][1] == s[3];
    assert s[1..][1..][1..][0] == s[3] && s[1..][1..][1..][1] == s[4];
    assert |s[1..][1..][1..][1..]| == 1;
  }

  lemma SquareMeasured()
    ensures SegmentsMeasured(Square, AxisLength)
  {
    forall i | 0 <= i < |Square| - 1
      ensures AxisLength(Square[i], Square[i + 1]) > 0.0
    {
      SquareSideSteps(i);
    }
  }

  /** Before rounding, the square at distance 3.33 has 17 points, among them every corner. */
  lemma SquareDistancePoints()
    ensures Interpolate(Square, ByDistance(3.33), AxisLength) == Success(DistancePoints(Square, 3.33, AxisLength))
    ensures |DistancePoints(Square, 3.33, AxisLength)| == 17
    ensures forall k :: 0 <= k < |Square| ==> Square[k] in DistancePoints(Square, 3.33, AxisLength)
  {
    SquareStepTotal();
    DistanceCount(Square, 3.33, AxisLength);
    SquareMeasured();
    forall k | 0 <= k < |Square|
      ensures Square[k] in DistancePoints(Square, 3.33, AxisLength)
    {
      DistancePointsKeepVertices(Square, 3.33, AxisLength, k);
    }
  }

  /**
   * At distance 3.33 each side of length 10 takes ceil(10 / 3.33) = 4
   * points, so the square gives 4 * 4 + 1 = 17, again with every corner.
   */
  lemma SquareByDistance()
    ensures DensifyRing(Square, ByDistance(3.33), DefaultPrecision, AxisLength).Success?
    ensures |DensifyRing(Square, ByDistance(3.33), DefaultPrecision, AxisLength).value| == 17
    ensures forall k :: 0 <= k < |Square| ==>
      Square[k] in DensifyRing(Square, ByDistance(3.33), DefaultPrecision, AxisLength).value
  {
    SquareDistancePoints();
    var exact := DistancePoints(Square, 3.33, AxisLength);
    var got := DensifyRing(Square, ByDistance(3.33), DefaultPrecision, AxisLength).value;
    forall k | 0 <= k < |Square|
      ensures Square[k] in got
    {
      var i :| 0 <= i < |exact| && exact[i] == Square[k];
      SquareOnGrid(k);
      assert got[i] == RoundPoint(exact[i], DefaultPrecision);
    }
  }

  /** A segment of length 10 at distance 2 gets four points between its ends, 2 apart. */
  lemma TenByTwo()
    ensures Interpolate([Point(0.0, 0.0), Point(10.0, 0.0)], ByDistance(2.0), AxisLength)
      == Success([Point(0.0, 0.0), Point(2.0, 0.0), Point(4.0, 0.0), Point(6.0, 0.0), Point(8.0, 0.0), Point(10.0, 0.0)])
  {
    var ring := [Point(0.0, 0.0), Point(10.0, 0.0)];
    var ts := StepParams(SegmentSteps(AxisLength, ring[0], ring[1], 2.0));
    assert SegmentSteps(AxisLength, ring[0], ring[1], 2.0) == 5.0;
    assert ts == [0.0, 0.2, 0.4, 0.6, 0.8];
    assert DistanceParams(ring, 2.0, AxisLength) == [ts];
    assert [ts][1..] == [];
    assert Runs(ring[1..], []) == [ring[1]];
    var run := Run(ring[0], ring[1], ts);
    assert run == [Point(0.0, 0.0), Point(2.0, 0.0), Point(4.0, 0.0), Point(6.0, 0.0), Point(8.0, 0.0)] by {
      assert run[1] == Lerp(ring[0], ring[1], 0.2);
      assert run[2] == Lerp(ring[0], ring[1], 0.4);
      assert run[3] == Lerp(ring[0], ring[1], 0.6);
      assert run[4] == Lerp(ring[0], ring[1], 0.8);
    }
    assert DistancePoints(ring, 2.0, AxisLength) == run + [ring[1]];
    assert Interpolate(ring, ByDistance(2.0), AxisLength) == Success(DistancePoints(ring, 2.0, AxisLength));
    assert run + [ring[1]]
      == [Point(0.0, 0.0), Point(2.0, 0.0), Point(4.0, 0.0), Point(6.0, 0.0), Point(8.0, 0.0), Point(10.0, 0.0)];
  }

  /** Deduplication collapses the adjacent repeat and keeps the closing repeat of the first point. */
  lemma DedupExample()
    ensures Reproject.Dedup([Point(0.0, 0.0), Point(1.0, 0.0), Point(1.0, 0.0), Point(1.0, 1.0), Point(0.0, 0.0)])
      == [Point(0.0, 0.0), Point(1.0, 0.0), Point(1.0, 1.0), Point(0.0, 0.0)]
  {
  }
}

=== FILE: external.dfy ===
/**
 * The foreign algorithms the core calls but does not implement. Each is a
 * function-typed field, so every statement about the core holds for any
 * behaviour of these collaborators unless a lemma says otherwise.
 */
module External {
  import opened Shapes
  import opened Raster

  /** One traced region of a mask: its polygon and the cell value it encloses. */
  datatype Region = Region(shape: Polygon, value: int)

  datatype Engines = Engines(
    /** `rasterio.features.shapes(mask, transform=...)`. */
    trace: (Grid, Affine) -> seq<Region>,
    /** `shapely.unary_union` of a list of polygons. */
    union: seq<Polygon> -> Geometry,
    /** The exterior ring of `geometry.convex_hull`. */
    hull: Geometry -> Ring,
    /** `transform_geom(src, dst, ..., precision=...)`, applied to one vertex. */
    project: (Crs, Crs, int, Point) -> Point,
    /** `geometry.simplify(tolerance, preserve_topology=False)`. */
    simplify: (Geometry, real) -> Geometry,
    /** `polygon.simplify(tolerance, preserve_topology=False)` on one Polygon. */
    simplifyPolygon: (Polygon, real) -> Polygon,
    /** The Euclidean segment length `np.sqrt(np.sum(np.square(dxdy)))`. */
    len: (Point, Point) -> real)

  /** `len` is the Euclidean length of the segment from p to q. */
  predicate Measures(len: (Point, Point) -> real, p: Point, q: Point)
  {
    len(p, q) >= 0.0 && len(p, q) * len(p, q) == SqDist(p, q)
  }

  /** The tracer labels every region with a value that occurs in the mask. */
  predicate TracesValuesOf(e: Engines, mask: Grid, transform: Affine)
  {
    forall k :: 0 <= k < |e.trace(mask, transform)| ==> Occurs(mask, e.trace(mask, transform)[k].value)
  }
}

=== FILE: footprint.dfy ===
/**
 * The footprint pipeline: extract the extent of a mask, densify it, reproject
 * it, simplify it; and the table that chooses which mask a raster reader
 * contributes.
 */
module Footprint {
  import opened Results
  import opened Shapes
  import opened Raster
  import opened External
  import opened Mask
  import Densify
  import Reproject

  const NoBandsMessage := "Raster footprint cannot be computed for an asset with no bands."
  const NodataMismatchMessage := "When specifying a 'nodata' value, all raster bands must have the same 'nodata' value."
  /** rasterio's complaint about a band index the dataset does not have. */
  const BandIndexMessage := "band index out of range"

  /** The keyword options shared by the `footprint_from_*` functions. */
  datatype Options = Options(
    destination: Crs,
    precision: int,
    densifyFactor: Option<int>,
    densifyDistance: Option<real>,
    simplifyTolerance: Option<real>,
    convexHull: bool,
    holes: bool)

  /** The defaults of the `footprint_from_*` signatures (note `holes` is off here). */
  const Defaults := Options(Wgs84, Densify.DefaultPrecision, None, None, None, false, false)

  /** `simplify_geometry`: the identity without a tolerance, otherwise the simplification engine. */
  function SimplifyGeometry(e: Engines, g: Geometry, tolerance: Option<real>): (s: Geometry)
    ensures tolerance.None? ==> s == g
    ensures tolerance.Some? ==> s == e.simplify(g, tolerance.value)
  {
    if tolerance.Some? then e.simplify(g, tolerance.value) else g
  }

  /** The extent the pipeline starts from. */
  function Extent(e: Engines, mask: Grid, transform: Affine, opts: Options): Option<Geometry>
  {
    GetMaskExtent(e, mask, transform, opts.convexHull, opts.holes)
  }

  /** The densification stage, which always rounds to the default precision. */
  function Densified(e: Engines, g: Geometry, opts: Options): Result<Geometry>
  {
    Densify.DensifyGeometry(Polygonal(g), opts.densifyFactor, opts.densifyDistance, Densify.DefaultPrecision, e.len)
  }

  /** The stages after extraction: densify, then reproject, then simplify. */
  function Stages(e: Engines, g: Geometry, source: Crs, opts: Options): (r: Result<Geometry>)
    ensures r.Failure? <==> Densified(e, g, opts).Failure?
    ensures r.Failure? ==> r.error == Densified(e, g, opts).error
    ensures |Members(g)| > 0 && opts.densifyFactor.Some? && opts.densifyDistance.Some? ==>
      r == Failure(ValueError(Densify.BothOptionsMessage))
    ensures r.Success? && opts.simplifyTolerance.None? ==>
      && (r.value.Poly? <==> g.Poly?)
      && |Members(r.value)| == |Members(g)|
      && forall k :: 0 <= k < |Members(g)| ==>
           Members(r.value)[k] == Reproject.ReprojectPolygon(e.project, source, opts.destination, opts.precision,
             Densify.DensifyPolygon(Members(g)[k], opts.densifyFactor, opts.densifyDistance, Densify.DefaultPrecision, e.len).value)
    ensures r.Success? && opts.simplifyTolerance.None? ==>
      forall k :: 0 <= k < |Members(r.value)| ==>
        && Reproject.NoAdjacentDup(Members(r.value)[k].exterior)
        && forall h :: 0 <= h < |Members(r.value)[k].holes| ==> Reproject.NoAdjacentDup(Members(r.value)[k].holes[h])
  {
    var densified :- Densified(e, g, opts);
    var reprojected := Reproject.ReprojectGeometry(e.project, source, opts.destination, opts.precision, Polygonal(densified)).value;
    Success(SimplifyGeometry(e, reprojected, opts.simplifyTolerance))
  }

  /**
   * Simplification is the last stage: with a tolerance, the result is the
   * simplification of what the stages give without one.
   */
  lemma SimplifyRunsLast(e: Engines, g: Geometry, source: Crs, opts: Options)
    requires Stages(e, g, source, opts).Success?
    ensures Stages(e, g, source, opts.(simplifyTolerance := None)).Success?
    ensures Stages(e, g, source, opts).value ==
      SimplifyGeometry(e, Stages(e, g, source, opts.(simplifyTolerance := None)).value, opts.simplifyTolerance)
  {
  }

  /**
   * `footprint_from_mask`: no extent means no footprint; otherwise the
   * extent is densified, then reprojected, then simplified.
   */
  function FootprintFromMask(e: Engines, mask: Grid, transform: Affine, source: Crs, opts: Options)
    : (r: Result<Option<Geometry>>)
    ensures r == Success(None) <==> Extent(e, mask, transform, opts).None?
    ensures r.Failure? <==> Extent(e, mask, transform, opts).Some? && Densified(e, Extent(e, mask, transform, opts).value, opts).Failure?
    ensures Extent(e, mask, transform, opts).Some? && |Members(Extent(e, mask, transform, opts).value)| > 0 &&
            opts.densifyFactor.Some? && opts.densifyDistance.Some? ==>
      r == Failure(ValueError(Densify.BothOptionsMessage))
    ensures Extent(e, mask, transform, opts).Some? && r.Success? ==>
      r.value == Some(Stages(e, Extent(e, mask, transform, opts).value, source, opts).value)
  {
    var extent := Extent(e, mask, transform, opts);
    if extent.None? then Success(None)
    else
      var g :- Stages(e, extent.value, source, opts);
      Success(Some(g))
  }

  /**
   * With no densification, no simplification and a projection that moves
   * nothing, the footprint is the extent with repeated points removed, and
   * every polygon keeps the winding `get_mask_extent` gave it.
   */
  lemma FootprintIdentityStages(e: Engines, mask: Grid, transform: Affine, source: Crs, opts: Options)
    requires opts.densifyFactor.None? && opts.densifyDistance.None? && opts.simplifyTolerance.None?
    requires forall q :: e.project(source, opts.destination, opts.precision, q) == q
    requires Extent(e, mask, transform, opts).Some?
    ensures FootprintFromMask(e, mask, transform, source, opts).Success?
    ensures FootprintFromMask(e, mask, transform, source, opts).value.Some?
    ensures var g := Extent(e, mask, transform, opts).value;
      var f := FootprintFromMask(e, mask, transform, source, opts).value.value;
      && |Members(f)| == |Members(g)|
      && forall k :: 0 <= k < |Members(g)| ==> Members(f)[k] == Reproject.DedupPolygon(Members(g)[k]) && IsOriented(Members(f)[k])
  {
    var g := Extent(e, mask, transform, opts).value;
    var f := FootprintFromMask(e, mask, transform, source, opts).value.value;
    forall k | 0 <= k < |Members(g)|
      ensures Members(f)[k] == Reproject.DedupPolygon(Members(g)[k]) && IsOriented(Members(f)[k])
    {
      Reproject.ReprojectIdentity(e.project, source, opts.destination, opts.precision, Members(g)[k]);
    }
  }

  /** Every pixel of every band matches the nodata value. */
  predicate AllNodata(a: PixelArray, noData: Value)
    requires WellFormedArray(a)
  {
    forall b, i, j :: 0 <= b < |Bands(a)| && 0 <= i < a.rows && 0 <= j < a.cols ==> !IsData(Bands(a)[b][i][j], noData)
  }

  /** `footprint_from_data`: build the mask, then delegate to `footprint_from_mask`. */
  function FootprintFromData(e: Engines, data: PixelArray, transform: Affine, source: Crs, noData: Option<Value>,
                             opts: Options): (r: Result<Option<Geometry>>)
    requires WellFormedArray(data)
    ensures noData.None? ==> r == FootprintFromMask(e, Full(data.rows, data.cols, DataValue), transform, source, opts)
    ensures noData.Some? && AllNodata(data, noData.value) && TracesValuesOf(e, CreateMask(data, noData), transform) ==>
      r == Success(None)
    ensures r == FootprintFromMask(e, CreateMask(data, noData), transform, source, opts)
  {
    var mask := CreateMask(data, noData);
    assert noData.Some? && AllNodata(data, noData.value) && TracesValuesOf(e, mask, transform) ==>
      Extent(e, mask, transform, opts).None? by {
      if noData.Some? && AllNodata(data, noData.value) && TracesValuesOf(e, mask, transform) {
        AllNodataEmptyMask(data, noData.value);
        NoDataNoExtent(e, mask, transform, opts.convexHull, opts.holes);
      }
    }
    assert noData.None? ==> mask == Full(data.rows, data.cols, DataValue);
    FootprintFromMask(e, mask, transform, source, opts)
  }

  /** Every grid has a cell at row i, column j. */
  predicate GridsCover(ms: seq<Grid>, i: nat, j: nat)
  {
    forall k :: 0 <= k < |ms| ==> i < |ms[k].cells| && j < |ms[k].cells[i]|
  }

  /** The per-pixel sum of the masks, before any wrap-around. */
  function SumCells(ms: seq<Grid>, i: nat, j: nat): (n: nat)
    requires GridsCover(ms, i, j)
  {
    if |ms| == 0 then 0 else ms[0].cells[i][j] + SumCells(ms[1..], i, j)
  }

  /** The number of masks that mark the pixel as valid. */
  function CountSet(ms: seq<Grid>, i: nat, j: nat): (n: nat)
    requires GridsCover(ms, i, j)
    ensures n <= |ms|
  {
    if |ms| == 0 then 0 else (if ms[0].cells[i][j] != 0 then 1 else 0) + CountSet(ms[1..], i, j)
  }

  predicate AnySet(ms: seq<Grid>, i: nat, j: nat)
    requires GridsCover(ms, i, j)
  {
    exists k :: 0 <= k < |ms| && ms[k].cells[i][j] != 0
  }

  lemma {:induction false} SumCellsPositive(ms: seq<Grid>, i: nat, j: nat)
    requires GridsCover(ms, i, j)
    ensures SumCells(ms, i, j) > 0 <==> AnySet(ms, i, j)
  {
    if |ms| > 0 {
      SumCellsPositive(ms[1..], i, j);
      if AnySet(ms[1..], i, j) {
        var k :| 0 <= k < |ms[1..]| && ms[1..][k].cells[i][j] != 0;
        assert ms[k + 1].cells[i][j] != 0;
      }
      if AnySet(ms, i, j) && ms[0].cells[i][j] == 0 {
        var k :| 0 <= k < |ms| && ms[k].cells[i][j] != 0;
        assert ms[1..][k - 1] == ms[k];
      }
    }
  }

  /** Masks whose pixels are 0 or 255 (as GDAL masks are) sum to 255 per valid mask. */
  lemma {:induction false} SumOfBinaryMasks(ms: seq<Grid>, i: nat, j: nat)
    requires GridsCover(ms, i, j)
    requires forall k :: 0 <= k < |ms| ==> ms[k].cells[i][j] == 0 || ms[k].cells[i][j] == DataValue
    ensures SumCells(ms, i, j) == 255 * CountSet(ms, i, j)
  {
    if |ms| > 0 {
      SumOfBinaryMasks(ms[1..], i, j);
    }
  }

  /** All masks are rows x cols grids. */
  predicate MasksShaped(ms: seq<Grid>, rows: nat, cols: nat)
  {
    forall k :: 0 <= k < |ms| ==> WellFormed(ms[k]) && ms[k].rows == rows && ms[k].cols == cols
  }

  lemma MasksCover(ms: seq<Grid>, rows: nat, cols: nat, i: nat, j: nat)
    requires MasksShaped(ms, rows, cols) && i < rows && j < cols
    ensures GridsCover(ms, i, j)
  {
    forall k | 0 <= k < |ms|
      ensures i < |ms[k].cells| && j < |ms[k].cells[i]|
    {
      assert Shaped(ms[k].cells, rows, cols);
    }
  }

  function OrCell(ms: seq<Grid>, rows: nat, cols: nat, i: nat, j: nat): (c: Byte)
    requires MasksShaped(ms, rows, cols) && i < rows && j < cols
    ensures GridsCover(ms, i, j)
    ensures c == 0 || c == DataValue
    ensures c == DataValue <==> AnySet(ms, i, j)
  {
    MasksCover(ms, rows, cols, i, j);
    SumCellsPositive(ms, i, j);
    if SumCells(ms, i, j) > 0 then DataValue else 0
  }

  /** The per-pixel OR of several band masks, summed without wrap-around: 255 where any mask is valid. */
  function OrMasks(ms: seq<Grid>, rows: nat, cols: nat): (g: Grid)
    requires MasksShaped(ms, rows, cols)
    ensures WellFormed(g) && g.rows == rows && g.cols == cols
    ensures forall i, j :: 0 <= i < rows && 0 <= j < cols ==>
      GridsCover(ms, i, j) && (g.cells[i][j] == DataValue <==> AnySet(ms, i, j))
    ensures forall i, j :: 0 <= i < rows && 0 <= j < cols ==> g.cells[i][j] == 0 || g.cells[i][j] == DataValue
  {
    Grid(rows, cols, seq(rows, i requires 0 <= i < rows => seq(cols, j requires 0 <= j < cols => OrCell(ms, rows, cols, i, j))))
  }

  /** One pixel of the OR as written: the band sum is taken modulo 256 before the non-zero test. */
  function WrappedOrCell(ms: seq<Grid>, rows: nat, cols: nat, i: nat, j: nat): (c: Byte)
    requires MasksShaped(ms, rows, cols) && i < rows && j < cols
    ensures GridsCover(ms, i, j)
    ensures c == 0 || c == DataValue
  {
    MasksCover(ms, rows, cols, i, j);
    if SumCells(ms, i, j) % 256 > 0 then DataValue else 0
  }

  /** The OR as written: `np.sum(..., dtype=np.uint8)` wraps at 256 before non-zero sums become 255. */
  function OrMasksAsWritten(ms: seq<Grid>, rows: nat, cols: nat): (g: Grid)
    requires MasksShaped(ms, rows, cols)
    ensures WellFormed(g) && g.rows == rows && g.cols == cols
    ensures forall i, j :: 0 <= i < rows && 0 <= j < cols ==> g.cells[i][j] == 0 || g.cells[i][j] == DataValue
  {
    Grid(rows, cols, seq(rows, i requires 0 <= i < rows => seq(cols, j requires 0 <= j < cols => WrappedOrCell(ms, rows, cols, i, j))))
  }

  /** Fewer than 256 masks of 0s and 255s: the uint8 sum does not wrap to zero, and both ORs agree. */
  lemma OrMasksAgree(ms: seq<Grid>, rows: nat, cols: nat, i: nat, j: nat)
    requires MasksShaped(ms, rows, cols) && i < rows && j < cols
    requires |ms| < 256
    requires forall k :: 0 <= k < |ms| ==> ms[k].cells[i][j] == 0 || ms[k].cells[i][j] == DataValue
    ensures OrMasksAsWritten(ms, rows, cols).cells[i][j] == OrMasks(ms, rows, cols).cells[i][j]
  {
    MasksCover(ms, rows, cols, i, j);
    SumOfBinaryMasks(ms, i, j);
    var c := CountSet(ms, i, j);
    if c > 0 {
      assert 255 * c == 256 * (c - 1) + (256 - c);
    }
  }

  /** 256 masks that all mark a pixel valid sum to 0 in uint8, and the OR as written marks it invalid. */
  lemma OrMasksWrap(ms: seq<Grid>, rows: nat, cols: nat, i: nat, j: nat)
    requires MasksShaped(ms, rows, cols) && i < rows && j < cols
    requires |ms| == 256
    requires forall k :: 0 <= k < |ms| ==> i < |ms[k].cells| && j < |ms[k].cells[i]| && ms[k].cells[i][j] == DataValue
    ensures OrMasksAsWritten(ms, rows, cols).cells[i][j] == 0
    ensures OrMasks(ms, rows, cols).cells[i][j] == DataValue
  {
    MasksCover(ms, rows, cols, i, j);
    SumOfBinaryMasks(ms, i, j);
    CountAllSet(ms, i, j);
    assert SumCells(ms, i, j) == 256 * 255;
    assert 0 < |ms| && ms[0].cells[i][j] != 0;
  }

  lemma {:induction false} CountAllSet(ms: seq<Grid>, i: nat, j: nat)
    requires GridsCover(ms, i, j)
    requires forall k :: 0 <= k < |ms| ==> ms[k].cells[i][j] != 0
    ensures CountSet(ms, i, j) == |ms|
  {
    if |ms| > 0 {
      CountAllSet(ms[1..], i, j);
    }
  }

  /** ORing a single 0/255 mask gives the mask back: the one-band branch agrees with the several-band one. */
  lemma OrOfOneMask(m: Grid)
    requires WellFormed(m)
    requires forall i, j :: 0 <= i < m.rows && 0 <= j < m.cols ==> m.cells[i][j] == 0 || m.cells[i][j] == DataValue
    ensures OrMasks([m], m.rows, m.cols) == m
  {
    var g := OrMasks([m], m.rows, m.cols);
    forall i | 0 <= i < m.rows
      ensures g.cells[i] == m.cells[i]
    {
      forall j | 0 <= j < m.cols
        ensures g.cells[i][j] == m.cells[i][j]
      {
        assert [m][0] == m;
        assert AnySet([m], i, j) <==> m.cells[i][j] != 0;
      }
    }
  }

  /** `nodata is None or nodata == reader.nodata`, with NaN unequal to everything. */
  predicate MatchesReaderNodata(noData: Option<Value>, r: Reader)
  {
    noData.None? || (noData.value.Num? && ReaderNodata(r) == Some(noData.value))
  }

  /** `not bands` for an optional band list. */
  function BandList(bands: Option<seq<int>>): (bs: seq<int>)
    ensures bands.None? ==> bs == []
    ensures bands.Some? ==> bs == bands.value
  {
    if bands.None? then [] else bands.value
  }

  predicate KnownBands(r: Reader, bands: seq<int>)
  {
    forall k :: 0 <= k < |bands| ==> bands[k] in r.indexes
  }

  /**
   * The mask a reader contributes: the whole raster when the caller asks for
   * it; the dataset mask, one band mask, or the OR of band masks when the
   * nodata value is the reader's own; otherwise the mask of the pixel data of
   * the listed bands (all bands when none are listed) against the explicit
   * nodata value.
   */
  function SelectMask(r: Reader, noData: Option<Value>, bands: seq<int>, whole: bool): (m: Result<Grid>)
    requires ReaderOk(r)
    ensures m.Success? ==> WellFormed(m.value) && m.value.rows == r.height && m.value.cols == r.width
    ensures whole ==> m == Success(Full(r.height, r.width, DataValue))
    ensures !whole && MatchesReaderNodata(noData, r) && |bands| == 0 ==> m == Success(r.datasetMask)
    ensures !whole && |bands| > 0 ==> (m.Failure? <==> !KnownBands(r, bands))
    ensures m.Failure? ==> m.error == IndexError(BandIndexMessage)
    ensures !whole && MatchesReaderNodata(noData, r) && |bands| == 1 && m.Success? ==> m.value == r.bandMask(bands[0])
    ensures !whole && MatchesReaderNodata(noData, r) && |bands| > 1 && m.Success? ==>
      forall i, j :: 0 <= i < r.height && 0 <= j < r.width ==>
        GridsCover(ReadMasks(r, bands), i, j) &&
        (m.value.cells[i][j] == DataValue <==> exists k :: 0 <= k < |bands| && r.bandMask(bands[k]).cells[i][j] != 0)
    ensures !whole && !MatchesReaderNodata(noData, r) && m.Success? ==>
      var listed := if |bands| == 0 then r.indexes else bands;
      KnownBands(r, listed) && m.value == CreateMask(Read(r, listed), noData)
  {
    if whole then Success(Full(r.height, r.width, DataValue))
    else if MatchesReaderNodata(noData, r) then
      if |bands| == 0 then Success(r.datasetMask)
      else if !KnownBands(r, bands) then Failure(IndexError(BandIndexMessage))
      else if |bands| == 1 then
        BandShaped(r, bands[0]);
        Success(r.bandMask(bands[0]))
      else
        var ms := ReadMasks(r, bands);
        assert MasksShaped(ms, r.height, r.width) by {
          forall k | 0 <= k < |ms| ensures WellFormed(ms[k]) && ms[k].rows == r.height && ms[k].cols == r.width {
            BandShaped(r, bands[k]);
          }
        }
        Success(OrMasks(ms, r.height, r.width))
    else
      var listed := if |bands| == 0 then r.indexes else bands;
      if !KnownBands(r, listed) then Failure(IndexError(BandIndexMessage))
      else Success(CreateMask(Read(r, listed), noData))
  }

  /** The whole-raster mask ignores the nodata value and the band list. */
  lemma WholeIgnoresOptions(r: Reader, n1: Option<Value>, n2: Option<Value>, b1: seq<int>, b2: seq<int>)
    requires ReaderOk(r)
    ensures SelectMask(r, n1, b1, true) == SelectMask(r, n2, b2, true)
  {
  }

  /** An explicit nodata value equal to the reader's own selects the same mask as none at all. */
  lemma ReaderNodataIsDefault(r: Reader, v: real, bands: seq<int>, whole: bool)
    requires ReaderOk(r)
    requires ReaderNodata(r) == Some(Num(v))
    ensures SelectMask(r, Some(Num(v)), bands, whole) == SelectMask(r, None, bands, whole)
  {
  }

  /**
   * `footprint_from_rasterio_reader`: a reader without bands is refused
   * first; an explicit nodata value needs one nodata value shared by all
   * bands; then the selected mask goes through `footprint_from_mask`.
   */
  function FootprintFromReader(e: Engines, r: Reader, noData: Option<Value>, bands: Option<seq<int>>, withNodata: bool,
                               opts: Options): (res: Result<Option<Geometry>>)
    requires ReaderOk(r)
    ensures |r.indexes| == 0 ==> res == Failure(ValueError(NoBandsMessage))
    ensures |r.indexes| > 0 && noData.Some? && !UniformNodata(r) ==> res == Failure(ValueError(NodataMismatchMessage))
    ensures |r.indexes| > 0 && (noData.None? || UniformNodata(r)) && SelectMask(r, noData, BandList(bands), withNodata).Failure? ==>
      res == Failure(SelectMask(r, noData, BandList(bands), withNodata).error)
    ensures |r.indexes| > 0 && (noData.None? || UniformNodata(r)) && SelectMask(r, noData, BandList(bands), withNodata).Success? ==>
      res == FootprintFromMask(e, SelectMask(r, noData, BandList(bands), withNodata).value, r.transform, r.crs, opts)
    ensures withNodata && |r.indexes| > 0 && (noData.None? || UniformNodata(r)) ==>
      res == FootprintFromMask(e, Full(r.height, r.width, DataValue), r.transform, r.crs, opts)
  {
    if |r.indexes| == 0 then Failure(ValueError(NoBandsMessage))
    else if noData.Some? && !UniformNodata(r) then Failure(ValueError(NodataMismatchMessage))
    else
      var mask :- SelectMask(r, noData, BandList(bands), withNodata);
      FootprintFromMask(e, mask, r.transform, r.crs, opts)
  }

  /** By default (no band list) the dataset mask is used, not the first band's mask. */
  lemma DefaultBandsUseDatasetMask(e: Engines, r: Reader)
    requires ReaderOk(r) && |r.indexes| > 0
    ensures FootprintFromReader(e, r, None, None, false, Defaults) ==
      FootprintFromMask(e, r.datasetMask, r.transform, r.crs, Defaults)
  {
  }
}

=== FILE: mask.dfy ===
/**
 * The validity mask and the extent traced from it: `create_mask` turns a
 * band-major pixel array into a 0/255 grid, and `get_mask_extent` turns the
 * 255 regions of a grid into an oriented Polygon or MultiPolygon.
 */
module Mask {
  import opened Results
  import opened Shapes
  import opened Raster
  import opened External

  /** The cell value that marks a valid (data) pixel. */
  const DataValue: Byte := 255

  /**
   * A pixel holds data unless it matches the nodata value: a NaN sentinel is
   * matched by `isnan`, any other sentinel by `!=` (under which a NaN pixel
   * never matches a number).
   */
  predicate IsData(v: Value, noData: Value)
  {
    match noData
    case NaN => !v.NaN?
    case Num(_) => v != noData
  }

  /** Every band has a cell at row i, column j. */
  predicate Covers(bands: seq<seq<seq<Value>>>, i: nat, j: nat)
  {
    forall b :: 0 <= b < |bands| ==> i < |bands[b]| && j < |bands[b][i]|
  }

  /** Some band holds data at row i, column j. */
  predicate AnyData(bands: seq<seq<seq<Value>>>, noData: Value, i: nat, j: nat)
    requires Covers(bands, i, j)
  {
    exists b :: 0 <= b < |bands| && IsData(bands[b][i][j], noData)
  }

  /** The per-pixel sum over bands of the 0/1 data indicator (`np.sum(mask, axis=0)` before any wrap-around). */
  function CountData(bands: seq<seq<seq<Value>>>, noData: Value, i: nat, j: nat): (n: nat)
    requires Covers(bands, i, j)
    ensures n <= |bands|
  {
    if |bands| == 0 then 0
    else (if IsData(bands[0][i][j], noData) then 1 else 0) + CountData(bands[1..], noData, i, j)
  }

  lemma {:induction false} CountDataPositive(bands: seq<seq<seq<Value>>>, noData: Value, i: nat, j: nat)
    requires Covers(bands, i, j)
    ensures CountData(bands, noData, i, j) > 0 <==> AnyData(bands, noData, i, j)
  {
    if |bands| > 0 {
      CountDataPositive(bands[1..], noData, i, j);
      if AnyData(bands[1..], noData, i, j) {
        var b :| 0 <= b < |bands[1..]| && IsData(bands[1..][b][i][j], noData);
        assert IsData(bands[b + 1][i][j], noData);
      }
      if AnyData(bands, noData, i, j) && !IsData(bands[0][i][j], noData) {
        var b :| 0 <= b < |bands| && IsData(bands[b][i][j], noData);
        assert bands[1..][b - 1] == bands[b];
      }
    }
  }

  /** When every band holds data at a pixel, the sum counts every band. */
  lemma {:induction false} CountAllData(bands: seq<seq<seq<Value>>>, noData: Value, i: nat, j: nat)
    requires Covers(bands, i, j)
    requires forall b :: 0 <= b < |bands| ==> IsData(bands[b][i][j], noData)
    ensures CountData(bands, noData, i, j) == |bands|
  {
    if |bands| > 0 {
      CountAllData(bands[1..], noData, i, j);
    }
  }

  lemma ArrayCovers(a: PixelArray, i: nat, j: nat)
    requires WellFormedArray(a) && i < a.rows && j < a.cols
    ensures Covers(Bands(a), i, j)
  {
    forall b | 0 <= b < |Bands(a)|
      ensures i < |Bands(a)[b]| && j < |Bands(a)[b][i]|
    {
      assert Shaped(Bands(a)[b], a.rows, a.cols);
    }
  }

  /** One cell of the mask for an explicit nodata value: 255 when any band holds data, else 0. */
  function DataCell(a: PixelArray, noData: Value, i: nat, j: nat): (c: Byte)
    requires WellFormedArray(a) && i < a.rows && j < a.cols
    ensures Covers(Bands(a), i, j)
    ensures c == 0 || c == DataValue
    ensures c == DataValue <==> AnyData(Bands(a), noData, i, j)
  {
    ArrayCovers(a, i, j);
    CountDataPositive(Bands(a), noData, i, j);
    if CountData(Bands(a), noData, i, j) > 0 then DataValue else 0
  }

  /**
   * `create_mask` with the band sum taken without wrap-around and the result
   * always two-dimensional: with no nodata value every cell is 255;
   * otherwise a cell is 255 exactly when some band holds data there.
   */
  function CreateMask(a: PixelArray, noData: Option<Value>): (g: Grid)
    requires WellFormedArray(a)
    ensures WellFormed(g) && g.rows == a.rows && g.cols == a.cols
    ensures forall i, j :: 0 <= i < a.rows && 0 <= j < a.cols ==> g.cells[i][j] == 0 || g.cells[i][j] == DataValue
    ensures noData.None? ==> forall i, j :: 0 <= i < a.rows && 0 <= j < a.cols ==> g.cells[i][j] == DataValue
    ensures noData.Some? ==> forall i, j :: 0 <= i < a.rows && 0 <= j < a.cols ==>
      Covers(Bands(a), i, j) && (g.cells[i][j] == DataValue <==> AnyData(Bands(a), noData.value, i, j))
  {
    if noData.None? then Full(a.rows, a.cols, DataValue)
    else
      Grid(a.rows, a.cols,
           seq(a.rows, i requires 0 <= i < a.rows =>
             seq(a.cols, j requires 0 <= j < a.cols => DataCell(a, noData.value, i, j))))
  }

  /** When every pixel of every band matches the nodata value, the mask has no data cell. */
  lemma AllNodataEmptyMask(a: PixelArray, noData: Value)
    requires WellFormedArray(a)
    requires forall b, i, j :: 0 <= b < |Bands(a)| && 0 <= i < a.rows && 0 <= j < a.cols ==>
      !IsData(Bands(a)[b][i][j], noData)
    ensures !Occurs(CreateMask(a, Some(noData)), DataValue)
  {
    var g := CreateMask(a, Some(noData));
    forall i, j | 0 <= i < |g.cells| && 0 <= j < |g.cells[i]|
      ensures g.cells[i][j] != DataValue
    {
      assert !AnyData(Bands(a), noData, i, j);
    }
  }

  /** A uint8 array as `create_mask` returns it: two- or three-dimensional. */
  datatype MaskArray = Mask2(grid: Grid) | Mask3(layers: seq<Grid>)

  /**
   * `create_mask` as written: the band sum is taken in uint8 and wraps at
   * 256, and with no nodata value the result keeps the band axis.
   */
  function CreateMaskAsWritten(a: PixelArray, noData: Option<Value>): (m: MaskArray)
    requires WellFormedArray(a)
    ensures m.Mask2? <==> noData.Some?
    ensures m.Mask3? ==> |m.layers| == |Bands(a)|
    ensures m.Mask3? ==> forall k :: 0 <= k < |m.layers| ==> m.layers[k] == CreateMask(a, None)
    ensures m.Mask2? ==> WellFormed(m.grid) && m.grid.rows == a.rows && m.grid.cols == a.cols
    ensures m.Mask2? && |Bands(a)| < 256 ==> m.grid == CreateMask(a, noData)
  {
    if noData.None? then Mask3(seq(|Bands(a)|, _ => Full(a.rows, a.cols, DataValue)))
    else
      var g := Grid(a.rows, a.cols,
                    seq(a.rows, i requires 0 <= i < a.rows =>
                      seq(a.cols, j requires 0 <= j < a.cols => WrappedCell(a, noData.value, i, j))));
      assert |Bands(a)| < 256 ==> forall i :: 0 <= i < a.rows ==> g.cells[i] == CreateMask(a, noData).cells[i];
      Mask2(g)
  }

  /** The as-written mask cell: the uint8 band sum, then every non-zero sum set to 255. */
  function WrappedCell(a: PixelArray, noData: Value, i: nat, j: nat): (c: Byte)
    requires WellFormedArray(a) && i < a.rows && j < a.cols
    ensures Covers(Bands(a), i, j)
    ensures c == 0 || c == DataValue
    ensures |Bands(a)| < 256 ==> c == DataCell(a, noData, i, j)
  {
    ArrayCovers(a, i, j);
    if CountData(Bands(a), noData, i, j) % 256 > 0 then DataValue else 0
  }

  /** With 256 bands that all hold data at a pixel, the uint8 sum wraps to 0 and the pixel is masked out. */
  lemma WrapDropsDataPixel(a: PixelArray, noData: Value, i: nat, j: nat)
    requires WellFormedArray(a) && i < a.rows && j < a.cols
    requires |Bands(a)| == 256
    requires forall b :: 0 <= b < |Bands(a)| ==> Shaped(Bands(a)[b], a.rows, a.cols) && IsData(Bands(a)[b][i][j], noData)
    ensures CreateMaskAsWritten(a, Some(noData)).grid.cells[i][j] == 0
    ensures CreateMask(a, Some(noData)).cells[i][j] == DataValue
  {
    ArrayCovers(a, i, j);
    CountAllData(Bands(a), noData, i, j);
  }

  /** Without a nodata value, a 5 x 5 array yields a 1 x 5 x 5 mask rather than a 5 x 5 one. */
  lemma MaskDimsAsWritten(plane: seq<seq<Value>>)
    requires Shaped(plane, 5, 5)
    ensures CreateMaskAsWritten(Plane(5, 5, plane), None) == Mask3([Full(5, 5, DataValue)])
    ensures CreateMask(Plane(5, 5, plane), None) == Full(5, 5, DataValue)
  {
  }

  /** The number of traced regions whose value is 255. */
  function DataCount(regions: seq<Region>): (n: nat)
    ensures n <= |regions|
  {
    if |regions| == 0 then 0
    else (if regions[0].value == DataValue as int then 1 else 0) + DataCount(regions[1..])
  }

  /** The shapes of the traced regions, in tracing order. */
  function ShapesOf(regions: seq<Region>): (ss: seq<Polygon>)
    ensures |ss| == |regions|
    ensures forall i :: 0 <= i < |regions| ==> ss[i] == regions[i].shape
  {
    seq(|regions|, i requires 0 <= i < |regions| => regions[i].shape)
  }

  /** The polygons of the traced regions whose value is 255, in tracing order. */
  function DataPolygons(regions: seq<Region>): (ps: seq<Polygon>)
    ensures |ps| == DataCount(regions)
    ensures IsSubsequence(ps, ShapesOf(regions))
    ensures |ps| == 0 <==> forall i :: 0 <= i < |regions| ==> regions[i].value != DataValue as int
    ensures forall i :: 0 <= i < |regions| && regions[i].value == DataValue as int ==> regions[i].shape in ps
    ensures forall k :: 0 <= k < |ps| ==>
      exists i :: 0 <= i < |regions| && regions[i].value == DataValue as int && regions[i].shape == ps[k]
  {
    if |regions| == 0 then []
    else
      var rest := DataPolygons(regions[1..]);
      assert forall i :: 1 <= i < |regions| ==> regions[i] == regions[1..][i - 1];
      assert ShapesOf(regions)[1..] == ShapesOf(regions[1..]);
      if regions[0].value == DataValue as int then
        assert ([regions[0].shape] + rest)[1..] == rest;
        [regions[0].shape] + rest
      else rest
  }

  /** Each polygon rebuilt from its exterior ring alone. */
  function StripHoles(ps: seq<Polygon>): (os: seq<Polygon>)
    ensures |os| == |ps|
    ensures forall k :: 0 <= k < |ps| ==> os[k].exterior == ps[k].exterior && os[k].holes == []
  {
    seq(|ps|, k requires 0 <= k < |ps| => Polygon(ps[k].exterior, []))
  }

  /** The data polygons traced from the mask. */
  function TracedData(e: Engines, mask: Grid, transform: Affine): seq<Polygon>
  {
    DataPolygons(e.trace(mask, transform))
  }

  /** The polygons `get_mask_extent` orients: the traced ones, or the union of their exteriors. */
  function ExtentParts(e: Engines, mask: Grid, transform: Affine, convexHull: bool, holes: bool): seq<Polygon>
  {
    if !holes && !convexHull then Members(e.union(StripHoles(TracedData(e, mask, transform))))
    else TracedData(e, mask, transform)
  }

  /**
   * `get_mask_extent`: keep the 255 regions, give up when there are none,
   * otherwise (without holes and hull) union the bare exteriors, orient
   * every polygon, return one as a Polygon and several as a MultiPolygon,
   * and with `convexHull` replace all of it by the oriented hull.
   */
  function GetMaskExtent(e: Engines, mask: Grid, transform: Affine, convexHull: bool, holes: bool): (r: Option<Geometry>)
    ensures r.None? <==> forall i :: 0 <= i < |e.trace(mask, transform)| ==> e.trace(mask, transform)[i].value != DataValue as int
    ensures r.Some? ==> forall k :: 0 <= k < |Members(r.value)| ==> IsOriented(Members(r.value)[k])
    ensures r.Some? && convexHull ==> r.value.Poly? && r.value.polygon.holes == []
    ensures r.Some? && convexHull ==>
      SameOrReversed(r.value.polygon.exterior, e.hull(Wrap(OrientAll(TracedData(e, mask, transform)))))
    ensures r.Some? && !convexHull ==> (r.value.Poly? <==> |Members(r.value)| == 1)
    ensures r.Some? && !convexHull ==>
      |Members(r.value)| == |ExtentParts(e, mask, transform, convexHull, holes)| &&
      forall k :: 0 <= k < |Members(r.value)| ==>
        SameOrReversed(Members(r.value)[k].exterior, ExtentParts(e, mask, transform, convexHull, holes)[k].exterior) &&
        |Members(r.value)[k].holes| == |ExtentParts(e, mask, transform, convexHull, holes)[k].holes| &&
        forall h :: 0 <= h < |Members(r.value)[k].holes| ==>
          SameOrReversed(Members(r.value)[k].holes[h], ExtentParts(e, mask, transform, convexHull, holes)[k].holes[h])
    ensures r.Some? && holes && !convexHull ==> |Members(r.value)| == |TracedData(e, mask, transform)|
  {
    var data := TracedData(e, mask, transform);
    if |data| == 0 then None
    else
      var extent := Wrap(OrientAll(ExtentParts(e, mask, transform, convexHull, holes)));
      if convexHull then Some(Poly(Orient(Polygon(e.hull(extent), []))))
      else Some(extent)
  }

  /** Without holes or hull, every polygon is hole-free whenever the union introduces no holes. */
  lemma BareExteriors(e: Engines, mask: Grid, transform: Affine)
    requires forall k :: 0 <= k < |ExtentParts(e, mask, transform, false, false)| ==>
      ExtentParts(e, mask, transform, false, false)[k].holes == []
    ensures GetMaskExtent(e, mask, transform, false, false).Some? ==>
      forall k :: 0 <= k < |Members(GetMaskExtent(e, mask, transform, false, false).value)| ==>
        Members(GetMaskExtent(e, mask, transform, false, false).value)[k].holes == []
  {
  }

  /** With the hull requested, the `holes` flag has no effect. */
  lemma HullIgnoresHoles(e: Engines, mask: Grid, transform: Affine, holes: bool)
    ensures GetMaskExtent(e, mask, transform, true, holes) == GetMaskExtent(e, mask, transform, true, !holes)
  {
  }

  /** A mask without any 255 cell yields no extent, for a tracer that only reports values present in the mask. */
  lemma NoDataNoExtent(e: Engines, mask: Grid, transform: Affine, convexHull: bool, holes: bool)
    requires TracesValuesOf(e, mask, transform)
    requires !Occurs(mask, DataValue as int)
    ensures GetMaskExtent(e, mask, transform, convexHull, holes).None?
  {
  }
}

=== FILE: raster.dfy ===
/**
 * Raster-side values: pixel arrays, byte masks, and the raster reader the
 * pipeline consults (an opened dataset, reduced to the metadata and the
 * reads the core performs).
 */
module Raster {
  import opened Results
  import opened Shapes

  /** A uint8 cell. */
  type Byte = b: int | 0 <= b < 256

  /** A pixel value; `NaN` is the floating-point not-a-number. */
  datatype Value = Num(v: real) | NaN

  /** A 2-D byte grid of `rows` rows of `cols` cells each. */
  datatype Grid = Grid(rows: nat, cols: nat, cells: seq<seq<Byte>>)

  predicate Shaped<T>(cells: seq<seq<T>>, rows: nat, cols: nat)
  {
    |cells| == rows && forall i :: 0 <= i < |cells| ==> |cells[i]| == cols
  }

  predicate WellFormed(g: Grid)
  {
    Shaped(g.cells, g.rows, g.cols)
  }

  /** `np.full((rows, cols), fill_value=v, dtype=np.uint8)`. */
  function Full(rows: nat, cols: nat, v: Byte): (g: Grid)
    ensures WellFormed(g) && g.rows == rows && g.cols == cols
    ensures forall i, j :: 0 <= i < rows && 0 <= j < cols ==> g.cells[i][j] == v
  {
    Grid(rows, cols, seq(rows, _ => seq(cols, _ => v)))
  }

  /** True when some cell of the grid holds v. */
  predicate Occurs(g: Grid, v: int)
  {
    exists i, j :: 0 <= i < |g.cells| && 0 <= j < |g.cells[i]| && g.cells[i][j] == v
  }

  /** A 2-D (rows x cols) or band-major 3-D (bands x rows x cols) pixel array. */
  datatype PixelArray =
    | Plane(rows: nat, cols: nat, plane: seq<seq<Value>>)
    | Stack(rows: nat, cols: nat, stack: seq<seq<seq<Value>>>)

  /** The array as bands; a 2-D array is one band (`data_array[np.newaxis, :]`). */
  function Bands(a: PixelArray): seq<seq<seq<Value>>>
  {
    match a
    case Plane(_, _, plane) => [plane]
    case Stack(_, _, stack) => stack
  }

  predicate WellFormedArray(a: PixelArray)
  {
    forall b :: 0 <= b < |Bands(a)| ==> Shaped(Bands(a)[b], a.rows, a.cols)
  }

  /**
   * An opened raster dataset: its band indexes, per-band nodata values,
   * size, georeferencing, and the masks and pixel data it can read.
   */
  datatype Reader = Reader(
    indexes: seq<int>,
    nodatavals: seq<Option<Value>>,
    height: nat,
    width: nat,
    transform: Affine,
    crs: Crs,
    datasetMask: Grid,
    bandMask: int -> Grid,
    bandData: int -> seq<seq<Value>>)

  /** The invariants an opened dataset keeps between its metadata and its reads. */
  predicate ReaderOk(r: Reader)
  {
    && |r.nodatavals| == |r.indexes|
    && WellFormed(r.datasetMask)
    && r.datasetMask.rows == r.height && r.datasetMask.cols == r.width
    && forall b :: b in r.indexes ==>
         && WellFormed(r.bandMask(b))
         && r.bandMask(b).rows == r.height && r.bandMask(b).cols == r.width
         && Shaped(r.bandData(b), r.height, r.width)
  }

  lemma BandShaped(r: Reader, b: int)
    requires ReaderOk(r) && b in r.indexes
    ensures WellFormed(r.bandMask(b)) && r.bandMask(b).rows == r.height && r.bandMask(b).cols == r.width
    ensures Shaped(r.bandData(b), r.height, r.width)
  {
  }

  /** `reader.nodata`: the first band's nodata value. */
  function ReaderNodata(r: Reader): Option<Value>
  {
    if |r.nodatavals| > 0 then r.nodatavals[0] else None
  }

  /** `len(set(reader.nodatavals)) == 1`. */
  predicate UniformNodata(r: Reader)
  {
    |r.nodatavals| > 0 && forall i :: 0 <= i < |r.nodatavals| ==> r.nodatavals[i] == r.nodatavals[0]
  }

  /** `reader.read_masks(bands)`: one mask per listed band. */
  function ReadMasks(r: Reader, bands: seq<int>): (ms: seq<Grid>)
    ensures |ms| == |bands|
    ensures forall k :: 0 <= k < |bands| ==> ms[k] == r.bandMask(bands[k])
  {
    seq(|bands|, k requires 0 <= k < |bands| => r.bandMask(bands[k]))
  }

  lemma ReadShaped(r: Reader, bands: seq<int>)
    requires ReaderOk(r)
    requires forall b :: b in bands ==> b in r.indexes
    ensures forall k :: 0 <= k < |bands| ==> Shaped(r.bandData(bands[k]), r.height, r.width)
  {
    forall k | 0 <= k < |bands|
      ensures Shaped(r.bandData(bands[k]), r.height, r.width)
    {
      var b := bands[k];
      assert b in bands;
    }
  }

  /** `reader.read(bands)`: a band-major 3-D array of the listed bands. */
  function Read(r: Reader, bands: seq<int>): (a: PixelArray)
    requires ReaderOk(r)
    requires forall b :: b in bands ==> b in r.indexes
    ensures a.Stack? && a.rows == r.height && a.cols == r.width
    ensures WellFormedArray(a)
    ensures |Bands(a)| == |bands|
    ensures forall k :: 0 <= k < |bands| ==> Bands(a)[k] == r.bandData(bands[k])
  {
    ReadShaped(r, bands);
    Stack(r.height, r.width, seq(|bands|, k requires 0 <= k < |bands| => r.bandData(bands[k])))
  }
}

=== FILE: rasterfootprint.dfy ===
/**
 * The superseded `RasterFootprint` class: one mask, one polygon. Its
 * densifiers do not round, only the exterior ring is densified and
 * reprojected, and several data regions are always replaced by their convex
 * hull. Behaviour it shares with the functional pipeline is taken from the
 * modules of that pipeline.
 */
module RasterFootprint {
  import opened Results
  import opened Shapes
  import opened Raster
  import opened External
  import opened Mask
  import Densify
  import Reproject
  import Pipeline = Footprint

  const BothDensificationsMessage := "Only one of 'densification_factor' or 'densification_distance' can be specified."
  const NoDataMismatchMessage := "When specifying a 'no_data' value, all raster bands must have the same 'nodata' value."

  /** The class's default band list. */
  const DefaultBands: seq<int> := [1]

  datatype RasterFootprint = RasterFootprint(
    mask: Grid,
    crs: Crs,
    transform: Affine,
    precision: int,
    densificationFactor: Option<int>,
    densificationDistance: Option<real>,
    simplifyTolerance: Option<real>)

  /** What the constructor guarantees: at most one densification option. */
  predicate Valid(fp: RasterFootprint)
  {
    fp.densificationFactor.None? || fp.densificationDistance.None?
  }

  /** `RasterFootprint(...)`: refuses both densification options, otherwise stores its arguments. */
  function New(mask: Grid, crs: Crs, transform: Affine, precision: int, factor: Option<int>, distance: Option<real>,
               tolerance: Option<real>): (r: Result<RasterFootprint>)
    ensures r.Failure? <==> factor.Some? && distance.Some?
    ensures r.Failure? ==> r.error == ValueError(BothDensificationsMessage)
    ensures r.Success? ==> Valid(r.value)
    ensures r.Success? ==> r.value.mask == mask && r.value.crs == crs && r.value.transform == transform
    ensures r.Success? ==> r.value.precision == precision && r.value.simplifyTolerance == tolerance
    ensures r.Success? ==> r.value.densificationFactor == factor && r.value.densificationDistance == distance
  {
    if factor.Some? && distance.Some? then Failure(ValueError(BothDensificationsMessage))
    else Success(RasterFootprint(mask, crs, transform, precision, factor, distance, tolerance))
  }

  /**
   * `data_extent`: no 255 region gives None, one region is kept with its
   * holes, several are replaced by the convex hull of all of them; the
   * result is oriented.
   */
  function DataExtent(e: Engines, fp: RasterFootprint): (r: Option<Polygon>)
    ensures r.None? <==> forall i :: 0 <= i < |e.trace(fp.mask, fp.transform)| ==>
      e.trace(fp.mask, fp.transform)[i].value != DataValue as int
    ensures r.Some? ==> IsOriented(r.value)
    ensures r.Some? && |TracedData(e, fp.mask, fp.transform)| == 1 ==>
      SameOrReversed(r.value.exterior, TracedData(e, fp.mask, fp.transform)[0].exterior) &&
      |r.value.holes| == |TracedData(e, fp.mask, fp.transform)[0].holes| &&
      forall h :: 0 <= h < |r.value.holes| ==>
        SameOrReversed(r.value.holes[h], TracedData(e, fp.mask, fp.transform)[0].holes[h])
    ensures r.Some? && |TracedData(e, fp.mask, fp.transform)| > 1 ==>
      r.value.holes == [] && SameOrReversed(r.value.exterior, e.hull(Multi(TracedData(e, fp.mask, fp.transform))))
  {
    var data := TracedData(e, fp.mask, fp.transform);
    if |data| == 0 then None
    else if |data| == 1 then Some(Orient(data[0]))
    else Some(Orient(Polygon(e.hull(Multi(data)), [])))
  }

  /**
   * For several regions, the class takes the extent `get_mask_extent` gives
   * with the hull requested, provided the hull does not depend on the
   * winding of its input rings.
   */
  lemma DataExtentIsHullExtent(e: Engines, fp: RasterFootprint, holes: bool)
    requires |TracedData(e, fp.mask, fp.transform)| > 1
    requires e.hull(Multi(OrientAll(TracedData(e, fp.mask, fp.transform)))) == e.hull(Multi(TracedData(e, fp.mask, fp.transform)))
    ensures DataExtent(e, fp).Some?
    ensures GetMaskExtent(e, fp.mask, fp.transform, true, holes) == Some(Poly(DataExtent(e, fp).value))
  {
  }

  /**
   * `densify_polygon`: the exterior ring alone is densified, without
   * rounding, and the holes are dropped; with neither option the polygon is
   * returned as it is. The `assert` guarding against two options fires only
   * when both are set and non-zero.
   */
  function DensifyPolygon(fp: RasterFootprint, p: Polygon, len: (Point, Point) -> real): (r: Result<Polygon>)
    ensures Valid(fp) ==> r.Failure? ==> !r.error.AssertionError?
    ensures fp.densificationFactor.None? && fp.densificationDistance.None? ==> r == Success(p)
    ensures Valid(fp) && fp.densificationFactor.Some? ==>
      (r.Failure? <==> Densify.RingFails(p.exterior, Densify.ByFactor(fp.densificationFactor.value)))
    ensures Valid(fp) && fp.densificationDistance.Some? ==>
      (r.Failure? <==> Densify.RingFails(p.exterior, Densify.ByDistance(fp.densificationDistance.value)))
    ensures r.Success? && (fp.densificationFactor.Some? || fp.densificationDistance.Some?) ==> r.value.holes == []
    ensures Valid(fp) && r.Success? && fp.densificationFactor.Some? ==>
      r.value.exterior == Densify.Interpolate(p.exterior, Densify.ByFactor(fp.densificationFactor.value), len).value
    ensures Valid(fp) && r.Success? && fp.densificationDistance.Some? ==>
      r.value.exterior == Densify.Interpolate(p.exterior, Densify.ByDistance(fp.densificationDistance.value), len).value
    ensures r.Success? && fp.densificationFactor.Some? && fp.densificationFactor.value >= 1 ==>
      |r.value.exterior| == Densify.VertexIndex(|p.exterior| - 1, fp.densificationFactor.value) + 1
    ensures r.Success? && |r.value.exterior| > 0 && |p.exterior| > 0 ==>
      r.value.exterior[|r.value.exterior| - 1] == p.exterior[|p.exterior| - 1]
  {
    var f := fp.densificationFactor;
    var d := fp.densificationDistance;
    if f.Some? && d.Some? && f.value != 0 && d.value != 0.0 then Failure(AssertionError(""))
    else if f.Some? then DensifyExterior(p, Densify.ByFactor(f.value), len)
    else if d.Some? then DensifyExterior(p, Densify.ByDistance(d.value), len)
    else Success(p)
  }

  /** The polygon rebuilt from its exterior ring, interpolated without rounding. */
  function DensifyExterior(p: Polygon, sp: Densify.Spacing, len: (Point, Point) -> real): (r: Result<Polygon>)
    ensures r.Failure? <==> Densify.RingFails(p.exterior, sp)
    ensures r.Failure? ==> !r.error.AssertionError?
    ensures r.Success? ==> r.value.holes == [] && r.value.exterior == Densify.Interpolate(p.exterior, sp, len).value
    ensures r.Success? && sp.ByFactor? && sp.factor >= 1 ==>
      |r.value.exterior| == Densify.VertexIndex(|p.exterior| - 1, sp.factor) + 1
    ensures r.Success? && |r.value.exterior| > 0 ==>
      |p.exterior| > 0 && r.value.exterior[|r.value.exterior| - 1] == p.exterior[|p.exterior| - 1]
  {
    var shell :- Densify.Interpolate(p.exterior, sp, len);
    Success(Polygon(shell, []))
  }

  /**
   * Because nothing is rounded, densifying an oriented polygon keeps it
   * oriented: the exterior's signed area is unchanged and no hole remains.
   */
  lemma DensifyKeepsOrientation(fp: RasterFootprint, p: Polygon, len: (Point, Point) -> real)
    requires Valid(fp) && IsOriented(p) && |p.exterior| >= 1
    requires fp.densificationFactor.Some? ==> fp.densificationFactor.value >= 1
    requires fp.densificationDistance.Some? ==>
      fp.densificationDistance.value > 0.0 && Densify.SegmentsMeasured(p.exterior, len)
    ensures DensifyPolygon(fp, p, len).Success?
    ensures IsOriented(DensifyPolygon(fp, p, len).value)
    ensures Shoelace(DensifyPolygon(fp, p, len).value.exterior) == Shoelace(p.exterior)
  {
    if fp.densificationFactor.Some? {
      Densify.InterpolateKeepsShoelace(p.exterior, Densify.ByFactor(fp.densificationFactor.value), len);
    } else if fp.densificationDistance.Some? {
      Densify.InterpolateKeepsShoelace(p.exterior, Densify.ByDistance(fp.densificationDistance.value), len);
    }
  }

  /**
   * `reproject_polygon`: the polygon goes to EPSG:4326 and only its
   * deduplicated exterior is kept; every hole is dropped.
   */
  function ReprojectPolygon(e: Engines, fp: RasterFootprint, p: Polygon): (o: Polygon)
    ensures o.holes == []
    ensures o.exterior == Reproject.ReprojectPolygon(e.project, fp.crs, Wgs84, fp.precision, p).exterior
    ensures Reproject.NoAdjacentDup(o.exterior)
    ensures |o.exterior| <= |p.exterior|
    ensures Closed(p.exterior) ==> Closed(o.exterior)
  {
    Polygon(Reproject.ReprojectPolygon(e.project, fp.crs, Wgs84, fp.precision, p).exterior, [])
  }

  /** `simplify_polygon`: the identity without a tolerance, otherwise simplify and re-orient. */
  function SimplifyPolygon(e: Engines, fp: RasterFootprint, p: Polygon): (o: Polygon)
    ensures fp.simplifyTolerance.None? ==> o == p
    ensures fp.simplifyTolerance.Some? ==> IsOriented(o)
    ensures fp.simplifyTolerance.Some? ==>
      SameOrReversed(o.exterior, e.simplifyPolygon(p, fp.simplifyTolerance.value).exterior)
  {
    if fp.simplifyTolerance.Some? then Orient(e.simplifyPolygon(p, fp.simplifyTolerance.value)) else p
  }

  /**
   * `footprint`: no extent gives None; otherwise the extent is densified,
   * reprojected and simplified, in that order.
   */
  function Footprint(e: Engines, fp: RasterFootprint): (r: Result<Option<Polygon>>)
    ensures r == Success(None) <==> DataExtent(e, fp).None?
    ensures r.Failure? <==> DataExtent(e, fp).Some? && DensifyPolygon(fp, DataExtent(e, fp).value, e.len).Failure?
    ensures r.Success? && r.value.Some? ==>
      r.value.value == SimplifyPolygon(e, fp, ReprojectPolygon(e, fp, DensifyPolygon(fp, DataExtent(e, fp).value, e.len).value))
    ensures DataExtent(e, fp).Some? && fp.densificationFactor.None? && fp.densificationDistance.None? ==> r.Success?
    ensures r.Success? && r.value.Some? && fp.simplifyTolerance.None? ==>
      r.value.value.holes == [] && Reproject.NoAdjacentDup(r.value.value.exterior)
    ensures r.Success? && r.value.Some? && fp.simplifyTolerance.Some? ==> IsOriented(r.value.value)
  {
    var extent := DataExtent(e, fp);
    if extent.None? then Success(None)
    else
      var densified :- DensifyPolygon(fp, extent.value, e.len);
      Success(Some(SimplifyPolygon(e, fp, ReprojectPolygon(e, fp, densified))))
  }

  /**
   * With a projection that moves nothing and no simplification, the
   * footprint of a non-empty extent is oriented and keeps its signed area
   * through densification by a factor or by a distance.
   */
  lemma FootprintKeepsOrientation(e: Engines, fp: RasterFootprint)
    requires Valid(fp) && fp.simplifyTolerance.None?
    requires fp.densificationFactor.Some? ==> fp.densificationFactor.value >= 1
    requires forall q :: e.project(fp.crs, Wgs84, fp.precision, q) == q
    requires DataExtent(e, fp).Some? && |DataExtent(e, fp).value.exterior| >= 1
    requires fp.densificationDistance.Some? ==>
      fp.densificationDistance.value > 0.0 && Densify.SegmentsMeasured(DataExtent(e, fp).value.exterior, e.len)
    ensures Footprint(e, fp).Success? && Footprint(e, fp).value.Some?
    ensures IsOriented(Footprint(e, fp).value.value)
    ensures Shoelace(Footprint(e, fp).value.value.exterior) == Shoelace(DataExtent(e, fp).value.exterior)
  {
    var extent := DataExtent(e, fp).value;
    DensifyKeepsOrientation(fp, extent, e.len);
    var densified := DensifyPolygon(fp, extent, e.len).value;
    Reproject.ReprojectIdentity(e.project, fp.crs, Wgs84, fp.precision, densified);
    Reproject.DedupKeepsShoelace(densified.exterior);
  }

  /**
   * `from_rasterio_dataset_reader`: the same refusals and mask table as
   * `footprint_from_rasterio_reader` (with `entire` for the whole raster and
   * its own wording of the nodata message), then the constructor.
   */
  function FromReader(r: Reader, noData: Option<Value>, entire: bool, bands: seq<int>, precision: int,
                      factor: Option<int>, distance: Option<real>, tolerance: Option<real>)
    : (res: Result<RasterFootprint>)
    requires ReaderOk(r)
    ensures |r.indexes| == 0 ==> res == Failure(ValueError(Pipeline.NoBandsMessage))
    ensures |r.indexes| > 0 && noData.Some? && !UniformNodata(r) ==> res == Failure(ValueError(NoDataMismatchMessage))
    ensures |r.indexes| > 0 && (noData.None? || UniformNodata(r)) ==>
      var m := Pipeline.SelectMask(r, noData, bands, entire);
      && (m.Failure? ==> res == Failure(m.error))
      && (m.Success? ==> res == New(m.value, r.crs, r.transform, precision, factor, distance, tolerance))
    ensures res.Success? ==> res.value.crs == r.crs && res.value.transform == r.transform
    ensures res.Success? ==> WellFormed(res.value.mask) && res.value.mask.rows == r.height && res.value.mask.cols == r.width
  {
    if |r.indexes| == 0 then Failure(ValueError(Pipeline.NoBandsMessage))
    else if noData.Some? && !UniformNodata(r) then Failure(ValueError(NoDataMismatchMessage))
    else
      var mask :- Pipeline.SelectMask(r, noData, bands, entire);
      New(mask, r.crs, r.transform, precision, factor, distance, tolerance)
  }

  /**
   * `from_numpy_array`: the data mask of the array (every cell 255 without a
   * nodata value), then the constructor.
   */
  function FromNumpyArray(data: PixelArray, crs: Crs, transform: Affine, noData: Option<Value>, precision: int,
                          factor: Option<int>, distance: Option<real>, tolerance: Option<real>)
    : (res: Result<RasterFootprint>)
    requires WellFormedArray(data)
    ensures res.Failure? <==> factor.Some? && distance.Some?
    ensures res.Failure? ==> res.error == ValueError(BothDensificationsMessage)
    ensures res.Success? ==> Valid(res.value) && res.value.crs == crs && res.value.transform == transform
    ensures res.Success? ==> res.value.precision == precision && res.value.simplifyTolerance == tolerance
    ensures res.Success? ==> res.value.densificationFactor == factor && res.value.densificationDistance == distance
    ensures res.Success? ==> WellFormed(res.value.mask) && res.value.mask.rows == data.rows && res.value.mask.cols == data.cols
    ensures res.Success? && noData.None? ==>
      forall i, j :: 0 <= i < data.rows && 0 <= j < data.cols ==> res.value.mask.cells[i][j] == DataValue
    ensures res.Success? && noData.Some? ==> forall i, j :: 0 <= i < data.rows && 0 <= j < data.cols ==>
      Covers(Bands(data), i, j) && (res.value.mask.cells[i][j] == DataValue <==> AnyData(Bands(data), noData.value, i, j))
  {
    New(CreateMask(data, noData), crs, transform, precision, factor, distance, tolerance)
  }

  /** The class's default band list reads the first band's mask, where the functional pipeline uses the dataset mask. */
  lemma DefaultBandsReadFirstBand(r: Reader, precision: int)
    requires ReaderOk(r) && 1 in r.indexes
    ensures FromReader(r, None, false, DefaultBands, precision, None, None, None).Success?
    ensures FromReader(r, None, false, DefaultBands, precision, None, None, None).value.mask == r.bandMask(1)
  {
  }
}

=== FILE: reproject.dfy ===
/**
 * Reprojection of polygons and multipolygons, followed by removal of the
 * consecutive duplicate points that rounding can create
 * (`[k for k, _ in groupby(ring)]`).
 */
module Reproject {
  import opened Results
  import opened Shapes

  const ExtentTypeMessage := "extent must be a Polygon or MultiPolygon"

  predicate NoAdjacentDup<T(==)>(s: seq<T>)
  {
    forall i :: 0 <= i < |s| - 1 ==> s[i] != s[i + 1]
  }

  /**
   * `groupby` keeps one element of every run of equal consecutive elements.
   */
  function Dedup<T(==)>(s: seq<T>): (r: seq<T>)
    ensures NoAdjacentDup(r)
    ensures |r| <= |s|
    ensures |s| > 0 ==> |r| > 0 && r[0] == s[0] && r[|r| - 1] == s[|s| - 1]
    ensures forall i :: 0 <= i < |r| ==> r[i] in s
    ensures forall i :: 0 <= i < |s| ==> s[i] in r
  {
    if |s| <= 1 then s
    else if s[0] == s[1] then Dedup(s[1..])
    else [s[0]] + Dedup(s[1..])
  }

  lemma {:induction false} DedupIsSubsequence<T>(s: seq<T>)
    ensures IsSubsequence(Dedup(s), s)
  {
    if |s| > 1 {
      DedupIsSubsequence(s[1..]);
      if s[0] != s[1] {
        assert ([s[0]] + Dedup(s[1..]))[1..] == Dedup(s[1..]);
      }
    }
  }

  /** A sequence without adjacent repeats is left unchanged, whatever it repeats elsewhere. */
  lemma {:induction false} DedupOfDupFree<T>(s: seq<T>)
    requires NoAdjacentDup(s)
    ensures Dedup(s) == s
  {
    if |s| > 1 {
      DedupOfDupFree(s[1..]);
      assert [s[0]] + s[1..] == s;
    }
  }

  lemma DedupIdempotent<T>(s: seq<T>)
    ensures Dedup(Dedup(s)) == Dedup(s)
  {
    DedupOfDupFree(Dedup(s));
  }

  /** `counts[i]` copies of `t[i]`, for every i in order. */
  function Stutter<T>(t: seq<T>, counts: seq<nat>): (s: seq<T>)
    requires |counts| == |t|
    ensures |t| > 0 && counts[0] > 0 ==> |s| > 0 && s[0] == t[0]
  {
    if |t| == 0 then [] else seq(counts[0], _ => t[0]) + Stutter(t[1..], counts[1..])
  }

  lemma {:induction false} DedupOfRun<T>(x: T, k: nat, rest: seq<T>)
    requires k > 0
    requires |rest| == 0 || rest[0] != x
    ensures Dedup(seq(k, _ => x) + rest) == [x] + Dedup(rest)
  {
    var s := seq(k, _ => x) + rest;
    if k == 1 {
      if |rest| > 0 {
        assert s[1..] == rest;
      } else {
        assert s == [x];
      }
    } else {
      assert s[1..] == seq(k - 1, _ => x) + rest;
      DedupOfRun(x, k - 1, rest);
    }
  }

  /**
   * Deduplication undoes any stuttering of a sequence that has no adjacent
   * repeats: it recovers the ring that rounding blew up into runs.
   */
  lemma {:induction false} DedupOfStutter<T>(t: seq<T>, counts: seq<nat>)
    requires |counts| == |t|
    requires forall i :: 0 <= i < |counts| ==> counts[i] > 0
    requires NoAdjacentDup(t)
    ensures Dedup(Stutter(t, counts)) == t
  {
    if |t| > 0 {
      var rest := Stutter(t[1..], counts[1..]);
      DedupOfStutter(t[1..], counts[1..]);
      if |t| > 1 {
        assert rest[0] == t[1];
      }
      DedupOfRun(t[0], counts[0], rest);
      assert [t[0]] + t[1..] == t;
    }
  }

  /** Removing repeated points leaves the signed area, hence the winding, unchanged. */
  lemma {:induction false} DedupKeepsShoelace(r: Ring)
    ensures Shoelace(Dedup(r)) == Shoelace(r)
  {
    if |r| > 1 {
      var d := Dedup(r[1..]);
      DedupKeepsShoelace(r[1..]);
      assert Shoelace(r) == Cross(r[0], r[1]) + Shoelace(r[1..]);
      if r[0] == r[1] {
        CrossSelf(r[0]);
      } else {
        assert Dedup(r) == [r[0]] + d;
        ShoelaceAppend([r[0]], d);
        assert d[0] == r[1];
      }
    }
  }

  /** Every vertex of the ring sent through the reprojection engine. */
  function ProjectRing(project: (Crs, Crs, int, Point) -> Point, src: Crs, dst: Crs, precision: int,
                       r: Ring): (o: Ring)
    ensures |o| == |r|
    ensures forall i :: 0 <= i < |r| ==> o[i] == project(src, dst, precision, r[i])
    ensures Closed(r) ==> Closed(o)
  {
    seq(|r|, i requires 0 <= i < |r| => project(src, dst, precision, r[i]))
  }

  function DedupPolygon(p: Polygon): (o: Polygon)
    ensures |o.holes| == |p.holes|
    ensures o.exterior == Dedup(p.exterior)
    ensures forall i :: 0 <= i < |p.holes| ==> o.holes[i] == Dedup(p.holes[i])
    ensures Closed(p.exterior) ==> Closed(o.exterior)
    ensures forall i :: 0 <= i < |p.holes| && Closed(p.holes[i]) ==> Closed(o.holes[i])
  {
    Polygon(Dedup(p.exterior), seq(|p.holes|, i requires 0 <= i < |p.holes| => Dedup(p.holes[i])))
  }

  /** Every ring of the polygon sent through the reprojection engine. */
  function ProjectPolygon(project: (Crs, Crs, int, Point) -> Point, src: Crs, dst: Crs, precision: int,
                          p: Polygon): (o: Polygon)
    ensures |o.holes| == |p.holes|
    ensures o.exterior == ProjectRing(project, src, dst, precision, p.exterior)
    ensures forall i :: 0 <= i < |p.holes| ==> o.holes[i] == ProjectRing(project, src, dst, precision, p.holes[i])
  {
    Polygon(ProjectRing(project, src, dst, precision, p.exterior),
            seq(|p.holes|, i requires 0 <= i < |p.holes| => ProjectRing(project, src, dst, precision, p.holes[i])))
  }

  /**
   * `reproject_polygon`: transform every vertex, then drop consecutive
   * duplicates from the exterior and, independently, from every hole.
   */
  function ReprojectPolygon(project: (Crs, Crs, int, Point) -> Point, src: Crs, dst: Crs, precision: int,
                            p: Polygon): (o: Polygon)
    ensures |o.holes| == |p.holes|
    ensures o.exterior == Dedup(ProjectPolygon(project, src, dst, precision, p).exterior)
    ensures forall i :: 0 <= i < |p.holes| ==> o.holes[i] == Dedup(ProjectPolygon(project, src, dst, precision, p).holes[i])
    ensures NoAdjacentDup(o.exterior)
    ensures forall i :: 0 <= i < |o.holes| ==> NoAdjacentDup(o.holes[i])
    ensures |o.exterior| <= |p.exterior|
    ensures |p.exterior| > 0 ==> |o.exterior| > 0
    ensures Closed(p.exterior) ==> Closed(o.exterior)
    ensures forall i :: 0 <= i < |p.holes| && Closed(p.holes[i]) ==> Closed(o.holes[i])
    ensures |p.exterior| > 0 ==>
      o.exterior[0] == project(src, dst, precision, p.exterior[0]) &&
      o.exterior[|o.exterior| - 1] == project(src, dst, precision, p.exterior[|p.exterior| - 1])
  {
    ReprojectedRings(project, src, dst, precision, p);
    DedupPolygon(ProjectPolygon(project, src, dst, precision, p))
  }

  /** What projecting and then deduplicating does to one ring. */
  lemma ReprojectedRing(project: (Crs, Crs, int, Point) -> Point, src: Crs, dst: Crs, precision: int, r: Ring)
    ensures var o := Dedup(ProjectRing(project, src, dst, precision, r));
      && NoAdjacentDup(o)
      && |o| <= |r|
      && (Closed(r) ==> Closed(o))
      && (|r| > 0 ==> |o| > 0)
      && (|r| > 0 ==>
            o[0] == project(src, dst, precision, r[0]) &&
            o[|o| - 1] == project(src, dst, precision, r[|r| - 1]))
  {
  }

  /** What projecting and then deduplicating does to each ring of a polygon. */
  lemma ReprojectedRings(project: (Crs, Crs, int, Point) -> Point, src: Crs, dst: Crs, precision: int, p: Polygon)
    ensures var o := DedupPolygon(ProjectPolygon(project, src, dst, precision, p));
      && NoAdjacentDup(o.exterior)
      && |o.exterior| <= |p.exterior|
      && (|p.exterior| > 0 ==> |o.exterior| > 0)
      && (Closed(p.exterior) ==> Closed(o.exterior))
      && (|p.exterior| > 0 ==>
            o.exterior[0] == project(src, dst, precision, p.exterior[0]) &&
            o.exterior[|o.exterior| - 1] == project(src, dst, precision, p.exterior[|p.exterior| - 1]))
      && (forall i :: 0 <= i < |o.holes| ==> NoAdjacentDup(o.holes[i]))
      && (forall i :: 0 <= i < |p.holes| && Closed(p.holes[i]) ==> Closed(o.holes[i]))
  {
    var o := DedupPolygon(ProjectPolygon(project, src, dst, precision, p));
    ReprojectedRing(project, src, dst, precision, p.exterior);
    forall i | 0 <= i < |o.holes|
      ensures NoAdjacentDup(o.holes[i])
      ensures Closed(p.holes[i]) ==> Closed(o.holes[i])
    {
      ReprojectedRing(project, src, dst, precision, p.holes[i]);
    }
  }

  /** `reproject_multi_polygon`: polygon by polygon, keeping count and order. */
  function ReprojectMultiPolygon(project: (Crs, Crs, int, Point) -> Point, src: Crs, dst: Crs, precision: int,
                                 ps: seq<Polygon>): (os: seq<Polygon>)
    ensures |os| == |ps|
    ensures forall i :: 0 <= i < |ps| ==> os[i] == ReprojectPolygon(project, src, dst, precision, ps[i])
  {
    seq(|ps|, i requires 0 <= i < |ps| => ReprojectPolygon(project, src, dst, precision, ps[i]))
  }

  /**
   * The Polygon/MultiPolygon dispatch of `reproject_extent`, with the
   * destination system as a parameter.
   */
  function ReprojectGeometry(project: (Crs, Crs, int, Point) -> Point, src: Crs, dst: Crs, precision: int,
                             s: Shape): (r: Result<Geometry>)
    ensures r.Failure? <==> s.NonPolygonal?
    ensures r.Failure? ==> r.error == TypeError(ExtentTypeMessage)
    ensures r.Success? ==> (r.value.Poly? <==> s.geometry.Poly?)
    ensures r.Success? ==> |Members(r.value)| == |Members(s.geometry)|
    ensures r.Success? ==> forall i :: 0 <= i < |Members(r.value)| ==>
      Members(r.value)[i] == ReprojectPolygon(project, src, dst, precision, Members(s.geometry)[i])
  {
    match s
    case Polygonal(Poly(p)) => Success(Poly(ReprojectPolygon(project, src, dst, precision, p)))
    case Polygonal(Multi(ps)) => Success(Multi(ReprojectMultiPolygon(project, src, dst, precision, ps)))
    case NonPolygonal(_) => Failure(TypeError(ExtentTypeMessage))
  }

  /** `reproject_extent`: the destination is always EPSG:4326. */
  function ReprojectExtent(project: (Crs, Crs, int, Point) -> Point, crs: Crs, precision: int,
                           s: Shape): (r: Result<Geometry>)
    ensures r.Failure? <==> s.NonPolygonal?
    ensures r.Failure? ==> r.error == TypeError(ExtentTypeMessage)
    ensures r.Success? ==> (r.value.Poly? <==> s.geometry.Poly?) && |Members(r.value)| == |Members(s.geometry)|
    ensures r.Success? ==> forall i :: 0 <= i < |Members(r.value)| ==>
      Members(r.value)[i] == ReprojectPolygon(project, crs, Wgs84, precision, Members(s.geometry)[i])
  {
    ReprojectGeometry(project, crs, Wgs84, precision, s)
  }

  /** An engine that leaves every vertex in place leaves the polygon unchanged. */
  lemma ProjectIdentity(project: (Crs, Crs, int, Point) -> Point, src: Crs, dst: Crs, precision: int, p: Polygon)
    requires forall q :: project(src, dst, precision, q) == q
    ensures ProjectPolygon(project, src, dst, precision, p) == p
  {
    var pp := ProjectPolygon(project, src, dst, precision, p);
    assert pp.exterior == p.exterior;
    forall i | 0 <= i < |p.holes|
      ensures pp.holes[i] == p.holes[i]
    {
      assert |pp.holes[i]| == |p.holes[i]|;
    }
    assert pp.holes == p.holes;
  }

  /**
   * Reprojecting with an engine that leaves every vertex in place yields the
   * deduplicated input, and keeps every ring's winding.
   */
  lemma ReprojectIdentity(project: (Crs, Crs, int, Point) -> Point, src: Crs, dst: Crs, precision: int,
                          p: Polygon)
    requires forall q :: project(src, dst, precision, q) == q
    ensures ReprojectPolygon(project, src, dst, precision, p) == DedupPolygon(p)
    ensures IsOriented(p) ==> IsOriented(ReprojectPolygon(project, src, dst, precision, p))
  {
    ProjectIdentity(project, src, dst, precision, p);
    DedupKeepsShoelace(p.exterior);
    forall i | 0 <= i < |p.holes|
      ensures Shoelace(Dedup(p.holes[i])) == Shoelace(p.holes[i])
    {
      DedupKeepsShoelace(p.holes[i]);
    }
  }
}

=== FILE: results.dfy ===
/** Python's None and raised exceptions, as values. */
module Results {

  /** An optional value; `None` stands for Python's `None`. */
  datatype Option<+T> = None | Some(value: T)

  /** The exception classes the modelled code raises, with their messages. */
  datatype Error =
    | ValueError(message: string)
    | TypeError(message: string)
    | IndexError(message: string)
    | ZeroDivisionError(message: string)
    | AssertionError(message: string)

  /** Either a returned value or a raised exception. Usable with `:-`. */
  datatype Result<+T> = Success(value: T) | Failure(error: Error) {

    predicate IsFailure() {
      Failure?
    }

    function PropagateFailure<U>(): Result<U>
      requires Failure?
    {
      Failure(error)
    }

    function Extract(): T
      requires Success?
    {
      value
    }
  }
}

=== FILE: shapes.dfy ===
/**
 * The geometry data model shared by every stage: points with real
 * coordinates, rings as point lists (closed rings repeat their first point
 * at the end), polygons with holes, and the Polygon/MultiPolygon sum type.
 * Winding is judged by the shoelace sum, and `Orient` is shapely's
 * `orient(polygon, sign=1.0)`.
 */
module Shapes {

  datatype Point = Point(x: real, y: real)

  /** The coordinate list of a ring, closing point included. */
  type Ring = seq<Point>

  datatype Polygon = Polygon(exterior: Ring, holes: seq<Ring>)

  /** The geometries every pipeline stage accepts and returns. */
  datatype Geometry = Poly(polygon: Polygon) | Multi(polygons: seq<Polygon>)

  /** Any geometry a caller may hand in; only polygonal ones are accepted. */
  datatype Shape = Polygonal(geometry: Geometry) | NonPolygonal(kind: string)

  /** A coordinate reference system identifier. */
  datatype Crs = Epsg(code: int) | Wkt(text: string)

  /** The geographic WGS84 system, "EPSG:4326". */
  const Wgs84: Crs := Epsg(4326)

  /** A pixel-to-CRS affine transform, passed through unchanged. */
  datatype Affine = Affine(a: real, b: real, c: real, d: real, e: real, f: real)

  /** The polygons of a geometry, in order. */
  function Members(g: Geometry): seq<Polygon>
  {
    match g
    case Poly(p) => [p]
    case Multi(ps) => ps
  }

  /** One polygon is returned as a Polygon; any other number as a MultiPolygon. */
  function Wrap(ps: seq<Polygon>): (g: Geometry)
    ensures g.Poly? <==> |ps| == 1
    ensures Members(g) == ps
  {
    if |ps| == 1 then Poly(ps[0]) else Multi(ps)
  }

  predicate Closed(r: Ring)
  {
    |r| > 0 && r[0] == r[|r| - 1]
  }

  /** The point at parameter t on the line from p (t = 0) to q (t = 1). */
  function Lerp(p: Point, q: Point, t: real): Point
  {
    Point(p.x + t * (q.x - p.x), p.y + t * (q.y - p.y))
  }

  function Cross(p: Point, q: Point): real
  {
    p.x * q.y - p.y * q.x
  }

  lemma CrossSelf(p: Point)
    ensures Cross(p, p) == 0.0
  {
  }

  function SqDist(p: Point, q: Point): real
  {
    (q.x - p.x) * (q.x - p.x) + (q.y - p.y) * (q.y - p.y)
  }

  /**
   * Twice the signed area enclosed by a closed ring (the shoelace sum over
   * consecutive coordinate pairs): positive for counter-clockwise rings.
   */
  function Shoelace(r: Ring): real
  {
    if |r| < 2 then 0.0 else Cross(r[0], r[1]) + Shoelace(r[1..])
  }

  /** t can be obtained from s by deleting elements. */
  predicate IsSubsequence<T(==)>(t: seq<T>, s: seq<T>)
    decreases |s|
  {
    if |t| == 0 then true
    else if |s| == 0 then false
    else (t[0] == s[0] && IsSubsequence(t[1..], s[1..])) || IsSubsequence(t, s[1..])
  }

  function Reverse<T>(s: seq<T>): (r: seq<T>)
    ensures |r| == |s|
    ensures forall i :: 0 <= i < |s| ==> r[i] == s[|s| - 1 - i]
  {
    if |s| == 0 then [] else Reverse(s[1..]) + [s[0]]
  }

  /** The shoelace sum of a concatenation counts the joining edge once. */
  lemma {:induction false} ShoelaceAppend(a: Ring, b: Ring)
    requires |a| > 0 && |b| > 0
    ensures Shoelace(a + b) == Shoelace(a) + Cross(a[|a| - 1], b[0]) + Shoelace(b)
  {
    if |a| == 1 {
      assert (a + b)[1..] == b;
    } else {
      ShoelaceAppend(a[1..], b);
      assert (a + b)[1..] == a[1..] + b;
    }
  }

  /** Reversing a ring negates its signed area. */
  lemma {:induction false} ShoelaceReverse(r: Ring)
    ensures Shoelace(Reverse(r)) == -Shoelace(r)
  {
    if |r| >= 2 {
      ShoelaceReverse(r[1..]);
      ShoelaceAppend(Reverse(r[1..]), [r[0]]);
    }
  }

  predicate SameOrReversed(r: Ring, original: Ring)
  {
    r == original || r == Reverse(original)
  }

  predicate IsOriented(p: Polygon)
  {
    && Shoelace(p.exterior) >= 0.0
    && forall i :: 0 <= i < |p.holes| ==> Shoelace(p.holes[i]) <= 0.0
  }

  function OrientExterior(r: Ring): (o: Ring)
    ensures Shoelace(o) >= 0.0
    ensures SameOrReversed(o, r)
    ensures Shoelace(r) >= 0.0 ==> o == r
  {
    if Shoelace(r) >= 0.0 then r else ShoelaceReverse(r); Reverse(r)
  }

  function OrientHole(r: Ring): (o: Ring)
    ensures Shoelace(o) <= 0.0
    ensures SameOrReversed(o, r)
    ensures Shoelace(r) <= 0.0 ==> o == r
  {
    if Shoelace(r) <= 0.0 then r else ShoelaceReverse(r); Reverse(r)
  }

  /**
   * shapely's `orient(polygon)`: the exterior is reversed when its signed
   * area is negative, each hole when its signed area is positive.
   */
  function Orient(p: Polygon): (o: Polygon)
    ensures IsOriented(o)
    ensures |o.holes| == |p.holes|
    ensures SameOrReversed(o.exterior, p.exterior)
    ensures forall i :: 0 <= i < |p.holes| ==> SameOrReversed(o.holes[i], p.holes[i])
    ensures IsOriented(p) ==> o == p
  {
    Polygon(OrientExterior(p.exterior),
            seq(|p.holes|, i requires 0 <= i < |p.holes| => OrientHole(p.holes[i])))
  }

  /** Orienting twice is orienting once. */
  lemma OrientIdempotent(p: Polygon)
    ensures Orient(Orient(p)) == Orient(p)
  {
  }

  function OrientAll(ps: seq<Polygon>): (os: seq<Polygon>)
    ensures |os| == |ps|
    ensures forall i :: 0 <= i < |ps| ==> os[i] == Orient(ps[i])
  {
    seq(|ps|, i requires 0 <= i < |ps| => Orient(ps[i]))
  }
}
